=== FILE: README.md ===
# Video-surveillance analytics core, modelled in Dafny

This project models the analytic core of a Flask video-surveillance app:

- the heuristic action recogniser: IoU, the per-index fall counter, the pairwise violence rule and the one-frame motion baseline;
- the alert notifier: a per-label cooldown, the snapshot file name and the SMS text;
- one iteration of the frame generator: the person/non-person split, the order of `notify` calls, the failure fallbacks and the multipart chunk;
- the event list built from snapshot file names;
- detector selection and the shaping of detector output.

Everything is a pure function over immutable datatypes. The clock (`now`), the `strftime` stamp (`ts`) and the OpenCV numerics are parameters:

- grey conversion, dense optical flow and JPEG encoding;
- the `{conf:.2f}` formatting;
- the raw HOG and YOLO inference outputs.

A frame is abstract pixel data plus the list of overlays drawn on it. This preserves the source's drawing order: a snapshot taken by a later `notify` in the same iteration shows the boxes already drawn by earlier calls (`Camera.LaterSnapshotShowsEarlierBox`).

Modules, one per file:

- `Common`: `Option`, `Result`, `dict.get` with a default, and an order-preserving `Filter`.
- `Text`: lower-casing, `endswith`, `replace('/', '_')`, `split('_')[0]` and `str(int)`, the last with its parse-back partner.
- `Geometry`: boxes and IoU.
- `Motion`: the motion baseline, numpy slicing and the region mean.
- `Actions`: the recogniser.
- `Frames`: frames and overlays.
- `Alerting`: the notifier.
- `Detectors`: backend choice and output shaping.
- `Multipart`: stream chunks.
- `Events`: `latest_events`.
- `Camera`: one `gen_frames` iteration.

Behaviours of the code the model reproduces:

- **Identical boxes.** IoU of a box with itself is `A / (A + 1e-6)`, not 1.0 (in exact arithmetic; see the float line under "Left out").
- **Malformed boxes.** A box with a negative area is not clamped to zero area. Its signed area enters the union.
- **Empty overlap.** A pair is skipped when the numpy slice `mag[yi1:yi2, xi1:xi2]` is empty, not when the geometric overlap has zero area. With non-negative coordinates a zero-area overlap always gives an empty slice (`Motion.EmptyRoi`). So does an overlap that lies outside the motion field, whatever its area (`Motion.RoiOffField`). Negative coordinates wrap around as numpy indices.
- **Suppressed alerts.** A suppressed `notify` returns `False`. A call without a frame returns `None`.
- **Person class.** A detection counts as a person when its class string is `"person"` or `"0"`.
- **Unavailable detector.** `build_detector` raises when Ultralytics is missing or the YOLO weights fail to load. It does not fall back to another backend.

## Model

| member | source | states |
|---|---|---|
| Text.LowerIdempotent | detector/yolo_detector.py:41 | lower-casing an already lowered string changes nothing |
| Text.Sanitize | alerting/notifier.py:32 | the sanitised label has the same length, keeps every non-`/` character in place, has `_` where the label had `/`, and contains no `/` |
| Text.SanitizeIdempotent | alerting/notifier.py:32 | a label without `/` is left as it is, and sanitising twice equals sanitising once |
| Text.BeforeFirst | camera.py:82 | `f.split('_')[0]` is a prefix of `f` without `_`, and it stops exactly at the first `_` when there is one |
| Text.IntToString | detector/yolo_detector.py:36 | `str(n)` is non-empty and starts with `-` exactly when `n` is negative; the rest is a decimal numeral without leading zeros (`0` alone for zero) |
| Text.IntToStringRoundTrip | detector/yolo_detector.py:36 | parsing `str(n)` gives back `n` |
| Text.IntToStringInjective | detector/yolo_detector.py:36 | distinct class ids have distinct fallback names |
| Geometry.PlusEpsNonZero | detector/actions.py:23-24 | the union denominator `k + 1e-6` is never zero for an integer `k`, so IoU is defined on every pair of integer boxes |
| Geometry.InterArea | detector/actions.py:18-20 | the intersection area is never negative |
| Geometry.Iou | detector/actions.py:15-24 | `iou(a, b)`: intersection area over union area plus `1e-6`. It has no contract of its own; its properties are stated by the rows for Geometry.IouSymmetric, Geometry.IouBounds, Geometry.IouDisjoint and Geometry.IouSelf |
| Geometry.IouSymmetric | detector/actions.py:15-24 | `iou(a, b) == iou(b, a)` |
| Geometry.IouDisjoint | detector/actions.py:18-24 | boxes that are apart or only touch along an edge have intersection 0 and IoU 0 |
| Geometry.InterBelowArea | detector/actions.py:20-22 | for well-formed boxes the intersection area is at most each box's area |
| Geometry.IouBounds | detector/actions.py:20-24 | for well-formed boxes `0 <= iou < 1` in exact arithmetic; the bound is strict because of the `1e-6` |
| Geometry.IouSelf | detector/actions.py:20-24 | a well-formed box (zero area included) scores `A / (A + 1e-6)` against itself, which is below 1 |
| Geometry.UnionBoxContains | detector/actions.py:66 | the reported violence box covers both boxes of the pair and is well-formed when they are |
| Motion.ZerosLike | detector/actions.py:30 | the first-call motion field has the grey frame's shape and is zero everywhere |
| Motion.UpdateMotion | detector/actions.py:26-35 | with no baseline the field has the grey frame's shape (row count and every row width) and is zero everywhere; otherwise it is the flow from the stored frame to the current one; either way the new baseline is the current grey frame |
| Motion.BaselineOneDeep | detector/actions.py:28-33 | of two consecutive calls, the second measures flow from the first call's frame, whatever came before |
| Motion.SliceBounds | detector/actions.py:64 | numpy slice bounds lie in `[0, n]` and are ordered; in-range bounds are taken as given; an inverted non-negative range is empty |
| Motion.Mean | detector/actions.py:65 | a region mean exists exactly when `roi.size > 0` |
| Motion.MeanBelow | detector/actions.py:65 | if every sample of a non-empty region is below `t`, its mean is below `t` |
| Motion.EmptyRoi | detector/actions.py:62-65 | with non-negative coordinates, a zero-area or inverted overlap selects no motion samples, so the pair is skipped |
| Motion.RoiOffField | detector/actions.py:62-65 | with non-negative coordinates, an overlap starting below the last row or right of every row selects no samples, whatever its area, so the pair is skipped |
| Motion.RoiBelow | detector/actions.py:64 | every sample of `mag[y1:y2, x1:x2]` is a sample of `mag`, so a bound on the field bounds the region |
| Actions.FallCounters | detector/actions.py:44-51 | each index below `n` becomes old+1 (absent = 0) when its box is lying down and 0 otherwise, computed from the count before the call; every other key keeps its entry |
| Actions.FallIndices | detector/actions.py:52-53 | the FALL indices are strictly increasing, each has a counter of at least `min_frames`, and every such index is included |
| Actions.RowPairs | detector/actions.py:58-66 | the inner loop yields exactly the qualifying partners `j` of `i`, in increasing `j` |
| Actions.PairsFrom | detector/actions.py:57-66 | the nested loops yield every qualifying pair `i < j` exactly once, in strictly increasing (i, j) order, and no other |
| Actions.ViolenceRule | detector/actions.py:56-66 | no emission unless the rule is on and there are at least two boxes; every emission is labelled VIOLENCE |
| Actions.Infer | detector/actions.py:37-67 | `infer(frame, boxes)`: the motion update, the fall rule and the violence rule in that order. It has no contract of its own; its properties are stated by the rows for Actions.InferFallCounter, Actions.InferOutputOrder, Actions.InferBaseline, Actions.ViolenceExact, Actions.InferKinds and Actions.FirstCallQuiet |
| Actions.InferFallCounter | detector/actions.py:43-51 | one `infer` applies the counter rule to every index of the current boxes and leaves every other index, and all of them when the rule is off, unchanged |
| Actions.InferBaseline | detector/actions.py:28-39 | after `infer` the baseline is the current grey frame, and the first call evaluates the violence rule on an all-zero field |
| Actions.InferOutputOrder | detector/actions.py:43-67 | the output opens with one FALL per index whose updated counter is at least `min_frames`, in index order, carrying that box (level-triggered); everything after is VIOLENCE |
| Actions.InferKinds | detector/actions.py:43-67 | `infer` emits only the two action labels, `ACCIDENT/FALL` and `VIOLENCE` |
| Actions.FirstCallQuiet | detector/actions.py:11-65 | the first `infer` after construction emits no VIOLENCE when `motion_mag > 0` (the field is all zero), and no FALL when `min_frames > 1` (every counter is at most 1) |
| Actions.NoViolenceWithoutPair | detector/actions.py:56 | with the rule off or fewer than two boxes, nothing but FALL is emitted |
| Actions.ViolenceExact | detector/actions.py:56-66 | VIOLENCE emissions match the qualifying pairs one to one, in loop order. Each pair has IoU ≥ `proximity_iou`, a non-empty region and mean motion ≥ `motion_mag`, and the emitted box is the pair's union box |
| Actions.ViolenceNeedsBoth | detector/actions.py:60-65 | a pair below the IoU threshold, with an empty region or with too little motion is never reported |
| Actions.ConsecutiveFalls | detector/actions.py:44-53 | over `m` consecutive frames with box `i` lying down, its counter rises by exactly `m` |
| Actions.FallReset | detector/actions.py:48-51 | one frame with box `i` upright sets its counter to 0 |
| Alerting.Throttle | alerting/notifier.py:11-17 | passes exactly when `now - last.get(key, 0) >= cooldown`. On a pass only `key` is set to `now`, every other key keeps its time, and no key is removed. On a failure nothing changes |
| Alerting.SnapshotNameFlat | alerting/notifier.py:31-32 | the snapshot file name has no `/` when the timestamp has none, and it ends in `.jpg` |
| Alerting.Notify | alerting/notifier.py:19-37 | suppressed exactly when the throttle fails, and then has no effect. Otherwise the last effect is the SMS `ALERT: <label> detected.`. Without a frame, that SMS is the only effect and the result is `None`. With a frame, the annotated snapshot is written first and its name is returned |
| Alerting.Annotate | alerting/notifier.py:26-30 | the snapshot keeps the frame's pixels; without a box it is the frame unchanged, with one it gains a red rectangle on the box and the label in red at `(x1, max(0, y1-6))` |
| Alerting.NotifySms | alerting/notifier.py:20-36 | a call sends exactly one SMS when it passes the throttle and none otherwise |
| Alerting.TwoCallsOneSms | alerting/notifier.py:11-22 | two calls for one label less than `cooldown` apart send at most one SMS |
| Alerting.QuietWindow | alerting/notifier.py:11-22 | calls that all fall within `cooldown` of the label's last pass change nothing and send nothing |
| Alerting.BurstSendsOnce | alerting/notifier.py:11-22 | calls for one label whose times are pairwise less than `cooldown` apart send at most one SMS, and exactly one when the first call passes |
| Alerting.FirstAlert | alerting/notifier.py:4-17 | the first call on a new notifier is suppressed exactly when `now < cooldown`; otherwise a frame's snapshot is written to the default `events` directory |
| Detectors.NormalizedKind | detector/yolo_detector.py:41 | the normalised kind is never empty and is already lower case; a non-empty kind keeps its length under the model's `Lower` |
| Detectors.SelectKind | detector/yolo_detector.py:41-44 | HOG is chosen exactly when the kind lower-cases to `mock`; everything else chooses YOLO, in particular `None` and `""` |
| Detectors.SelectKindIgnoresCase | detector/yolo_detector.py:41-42 | letter case never changes the choice |
| Detectors.BuildDetector | detector/yolo_detector.py:22-44 | construction fails exactly when YOLO is chosen and either Ultralytics is missing (with the `Ultralytics not installed` message, checked first) or `YOLO(model_name)` fails to load (with its error); otherwise it yields the chosen kind |
| Detectors.HogDetections | detector/yolo_detector.py:14-19 | one person detection per `zip(rects, weights)` pair, in order, with box `(x, y, x+w, y+h)` and the weight as confidence |
| Detectors.RectToBoxKeepsSize | detector/yolo_detector.py:18 | the corner box keeps width and height and is well-formed for a non-negative size |
| Detectors.Trunc | detector/yolo_detector.py:33 | `int(x)` truncates toward zero: it lies within 1 of `x`, on the zero side |
| Detectors.ClassName | detector/yolo_detector.py:36 | the table name when the table has the id; otherwise exactly `str(cls_id)`, which parses back to the id |
| Detectors.YoloDetections | detector/yolo_detector.py:29-38 | one detection per predicted box, in order, with truncated corners, the resolved class name and the confidence |
| Multipart.Chunk | camera.py:75-76 | the chunk is the fixed `--frame` / `Content-Type: image/jpeg` header, then the payload, then CRLF |
| Multipart.UnframeChunk | camera.py:75-76 | stripping the header and trailer from a chunk recovers the payload |
| Multipart.ChunkUnframe | camera.py:75-76 | every byte string that unframes to a payload is that payload's chunk |
| Events.Jpgs | camera.py:80 | keeps exactly the entries whose lower-cased name ends in `.jpg`, with their multiplicities |
| Events.Insert | camera.py:80-81 | inserting into a newest-first list keeps it newest first and adds exactly the one entry |
| Events.SortNewestFirst | camera.py:80-81 | the sort output is newest first and is a permutation of its input |
| Events.TakePrefix | camera.py:81 | `s[:limit]` is a prefix of `s`: of length `min(limit, len(s))` for a non-negative limit, and short of `s` by `min(-limit, len(s))` entries for a negative one |
| Events.Recent | camera.py:80-81 | exactly `min(limit, #jpg)` files (all but the last `-limit` for a negative limit), all `.jpg`, newest first, drawn from the listing, and none left out is newer than one kept |
| Events.LatestEvents | camera.py:78-84 | a failed listing gives `[]`. Otherwise there is one entry per recent file, holding its name, the label before the first `_`, and its formatted time |
| Events.SnapshotLabelReadBack | camera.py:82 | a snapshot name reads back as its label when the label has no `_` or `/`, reads back as `ACCIDENT` for a fall, and is always listed as `.jpg` |
| Camera.PartitionDetections | camera.py:47-67 | the person boxes and the non-person detections that the last drawing pass draws (`NonPersons`) split the detections: every detection is on exactly one side, and each side holds only its own kind |
| Camera.PartitionKeepsOrder | camera.py:47-67 | both passes keep detection order (they distribute over concatenation) |
| Camera.DetectorsProducePeople | camera.py:47 | every HOG detection is a person box, and a YOLO class 0 without a name table is a person |
| Camera.NotifyEach | camera.py:51-62 | the notify-then-draw loop keeps the pixels; with drawing on it adds each call's box and label caption in call order, with it off nothing; the notifier ends as throttling the calls alone leaves it, and the SMS count is the number of calls that pass the throttle |
| Camera.DrawOthers | camera.py:64-69 | the last pass keeps the pixels; with drawing on it adds exactly the non-person detections' boxes, captioned `cls:conf`, in detection order; with it off nothing |
| Camera.LaterSnapshotShowsEarlierBox | camera.py:51-62 | with drawing on, a later call's snapshot holds the box and caption drawn by the earlier call, under its own red box |
| Camera.FrameStep | camera.py:26-76 | a failed read changes nothing and yields nothing. A frame read yields a chunk exactly when its annotated frame encodes, and the chunk frames the encoding |
| Camera.StepRunsInferOnce | camera.py:47-60 | `infer` runs once on the person boxes and the frame as drawn after the intruder pass; its state is kept; the action calls follow its output one for one after the intruder calls; StepNotifies ties these calls to the notifier state and SMS count |
| Camera.StepIntruderFirst | camera.py:50-60 | with intruder alerting on, `INTRUDER` is notified once per person box, in order, before every action call; with it off, no `INTRUDER` call happens; StepNotifies shows these are the calls the throttle sees, in this order |
| Camera.StepNotifies | camera.py:50-60 | the notifier state and the SMS count of an iteration are those of throttling exactly the step's calls (intruder calls, then action calls) in that order through one notifier |
| Camera.ThrottleEachAppend | camera.py:50-60 | throttling two call lists back to back equals throttling their concatenation: the notifier state carries over and the pass counts add |
| Camera.StepDetectorFailure | camera.py:39-58 | a detector exception means no notify call and no effect. The recogniser runs on `[]`, keeping its counters and moving its baseline. The frame carries the red diagnostic text |
| Camera.StepChunk | camera.py:72-76 | a chunk is yielded exactly when the frame was read and encoded, and unframing it recovers the encoded bytes |

## Left out

- **Web layer.** Flask routing, templates, `.env` and YAML loading (`app.py`) are HTTP and configuration plumbing. The rule settings are inputs (`Camera.CameraConfig`, `Actions.ActionConfig`).
- **SMS transport.** The Twilio client (`alerting/twilio_client.py`) is a network client. Sending is recorded as an `SmsSent` effect, and the client's own fail-soft behaviour is not modelled.
- **OpenCV numerics and drawing.** Optical flow, `cartToPolar`, `cvtColor`, `imencode`, and the HOG and YOLO inference calls are foreign numerics. They are function parameters or raw inputs. Drawing records overlays instead of changing pixels.
- **Snapshot writes.** `cv2.imwrite` becomes the `SnapshotWritten` effect of `Alerting.Notify`, recorded whenever the snapshot branch runs. Its failure (a `False` return, which alerting/notifier.py:33 ignores) is not modelled.
- **Frame resizing.** `camera.py:33-36` is float scaling. The frame that is read is taken as already resized.
- **Streaming loop.** The infinite loop, `time.sleep` and the retry after a failed read are not modelled: one iteration is modelled.
- **Concurrent viewers.** Every viewer of the stream runs `gen_frames` on the one shared `VideoProcessor` (app.py:18 and app.py:32), so two viewers interleave reads, recogniser updates and notifier calls on shared state. The model has one caller.
- **Floating point.** IoU and the aspect ratio `w / (h + 1e-6)` are doubles in the source, and the `np.mean` of the float32 motion field is accumulated and returned in float32 (detector/actions.py:65 then widens it with `float`). The model uses exact reals, so any comparison whose threshold lies within rounding error of the exact value may differ. For example, numpy's documentation shows a 512×512 float32 array, half 1.0 and half 0.1, averaging to 0.54999924 rather than 0.55. With `motion_mag = 0.55` such a region fails the source's `>=` test, yet passes the model's.
- Geometry.IouBounds: the strict upper bound holds in exact arithmetic only; in doubles `A / (A + 1e-6)` rounds to `1.0` once `A` reaches about `2**34`.
- Geometry.IouSelf: states `A / (A + 1e-6) < 1` in exact arithmetic; for areas of about `2**34` or more the source's double result is `1.0`.
- **Capture and directories.** Opening the capture device (`camera.py:11-13`) and `os.makedirs` for the snapshot directory are resource acquisition, not analytic logic.
- **Filesystem listing.** `latest_events` works over a given list of (name, mtime) pairs. `None` stands for any exception raised by `listdir` or `getmtime`.
- **Camera.FrameStep:** one `now` and one `ts` are used for the whole iteration. The source reads the clock anew in each `notify` call.
- **Text.LowerChar:** maps only `A`–`Z` and the KELVIN SIGN, not Python's full Unicode lower-casing. Every comparison the core makes after lowering is against `"mock"` or `".jpg"`, and no other character lower-cases into one of their letters.
- Detectors.NormalizedKind: its length clause holds for the model's `Lower` only; Python's `str.lower()` can lengthen a string (U+0130 becomes two code points), so for such kinds the source does not keep the length. The choice between HOG and YOLO is unaffected, as the `Text.LowerChar` line explains.
- **Events.SortNewestFirst:** is a stable sort like Python's. The stability itself (ties keep listing order) is not stated.
- **Detectors.Trunc:** does not model `int()` failing on infinite or NaN floats.

=== FILE: actions.dfy ===
/** The heuristic action recogniser (detector/actions.py): a per-index fall
    counter, a pairwise violence rule over the motion field, and the motion
    baseline. One call of `infer` is the pure step `Infer`, which returns the
    new recogniser state and the emitted `(label, box)` pairs. */
module Actions {
  import opened Common
  import opened Geometry
  import opened Motion

  const FallLabel: string := "ACCIDENT/FALL"
  const ViolenceLabel: string := "VIOLENCE"

  datatype FallConfig = FallConfig(enabled: bool, aspectRatio: real, minFrames: int)
  datatype ViolenceConfig = ViolenceConfig(enabled: bool, proximityIou: real, motionMag: real)
  datatype ActionConfig = ActionConfig(fall: FallConfig, violence: ViolenceConfig)

  /** `fall_counter` (positional index to consecutive-hit count) and `prev_gray`. */
  datatype Recognizer = Recognizer(fallCounter: map<int, int>, prevGray: Option<Gray>)

  /** The state right after construction. */
  const Fresh: Recognizer := Recognizer(map[], None)

  /** One `(label, box)` pair of the output list. */
  datatype Emission = Emission(kind: string, box: Box)

  // ---------------------------------------------------------------- fall rule

  /** `h > 0 and w / (h + 1e-6) >= aspect_ratio` */
  predicate LyingDown(b: Box, aspectRatio: real)
  {
    var w := b.x2 - b.x1;
    var h := b.y2 - b.y1;
    h > 0 && (w as real) / (h as real + Eps) >= aspectRatio
  }

  /** The count an index gets from one box: one more than before (absent
      counts as zero) while the box is lying down, zero otherwise. */
  function NextCount(counter: map<int, int>, i: int, b: Box, aspectRatio: real): int
  {
    if LyingDown(b, aspectRatio) then GetOr(counter, i, 0) + 1 else 0
  }

  /** The counter map after the fall loop has visited `boxes[..n]`. Each
      visited index is rewritten from the value it had BEFORE the call; no
      other index is touched. */
  function FallCounters(counter: map<int, int>, boxes: seq<Box>, aspectRatio: real, n: nat): (c: map<int, int>)
    requires n <= |boxes|
    ensures forall i :: 0 <= i < n ==> i in c && c[i] == NextCount(counter, i, boxes[i], aspectRatio)
    ensures forall k :: (k < 0 || k >= n) ==> (k in c <==> k in counter)
    ensures forall k :: (k < 0 || k >= n) && k in counter ==> c[k] == counter[k]
    decreases n
  {
    if n == 0 then counter
    else
      var c := FallCounters(counter, boxes, aspectRatio, n - 1);
      c[n - 1 := NextCount(c, n - 1, boxes[n - 1], aspectRatio)]
  }

  /** The indices below `n` whose counter has reached `minFrames`, ascending. */
  function FallIndices(c: map<int, int>, minFrames: int, n: nat): (r: seq<nat>)
    ensures forall k :: 0 <= k < |r| ==> r[k] < n && r[k] in c && c[r[k]] >= minFrames
    ensures forall i: nat :: i < n && i in c && c[i] >= minFrames ==> i in r
    ensures forall k, l :: 0 <= k < l < |r| ==> r[k] < r[l]
    decreases n
  {
    if n == 0 then []
    else FallIndices(c, minFrames, n - 1) + (if n - 1 in c && c[n - 1] >= minFrames then [n - 1] else [])
  }

  /** The `if fall.enabled` block: new counters and the FALL emissions. */
  function FallRule(counter: map<int, int>, boxes: seq<Box>, cfg: FallConfig): (map<int, int>, seq<Emission>)
  {
    if !cfg.enabled then (counter, [])
    else
      var c := FallCounters(counter, boxes, cfg.aspectRatio, |boxes|);
      var idx := FallIndices(c, cfg.minFrames, |boxes|);
      (c, seq(|idx|, k requires 0 <= k < |idx| => Emission(FallLabel, boxes[idx[k]])))
  }

  // ------------------------------------------------------------ violence rule

  /** Mean of the motion field over the overlap rectangle of two boxes,
      sliced with numpy semantics; `None` when the slice is empty. */
  function RegionMean(mag: Grid, a: Box, b: Box): Option<real>
  {
    var o := Overlap(a, b);
    Mean(Roi(mag, o.y1, o.y2, o.x1, o.x2))
  }

  /** The test a pair must pass to be reported as violence. */
  predicate Fighting(a: Box, b: Box, mag: Grid, cfg: ViolenceConfig)
  {
    && Iou(a, b) >= cfg.proximityIou
    && RegionMean(mag, a, b).Some?
    && RegionMean(mag, a, b).value >= cfg.motionMag
  }

  /** Order of the nested `for i` / `for j` loops. */
  predicate LexLess(p: (nat, nat), q: (nat, nat))
  {
    p.0 < q.0 || (p.0 == q.0 && p.1 < q.1)
  }

  /** Inner loop: the partners `j' >= j` of `i` that pass `test`. */
  function RowPairs(n: nat, test: (nat, nat) -> bool, i: nat, j: nat): (r: seq<(nat, nat)>)
    requires i < j <= n
    ensures forall k :: 0 <= k < |r| ==> r[k].0 == i && j <= r[k].1 < n && test(r[k].0, r[k].1)
    ensures forall m: nat :: j <= m < n && test(i, m) ==> (i, m) in r
    ensures forall k, l :: 0 <= k < l < |r| ==> r[k].1 < r[l].1
    decreases n - j
  {
    if j == n then []
    else (if test(i, j) then [(i, j)] else []) + RowPairs(n, test, i, j + 1)
  }

  /** Outer loop from `i` on: every pair `p < q < n` with `p >= i` that
      passes `test`, each once, in loop order. */
  function PairsFrom(n: nat, test: (nat, nat) -> bool, i: nat): (r: seq<(nat, nat)>)
    requires i <= n
    ensures forall k :: 0 <= k < |r| ==> i <= r[k].0 < r[k].1 < n && test(r[k].0, r[k].1)
    ensures forall p: nat, q: nat :: i <= p < q < n && test(p, q) ==> (p, q) in r
    ensures forall k, l :: 0 <= k < l < |r| ==> LexLess(r[k], r[l])
    decreases n - i
  {
    if i == n then []
    else RowPairs(n, test, i, i + 1) + PairsFrom(n, test, i + 1)
  }

  /** The pairs of person boxes that fight, in loop order. */
  function ViolencePairs(boxes: seq<Box>, mag: Grid, cfg: ViolenceConfig): seq<(nat, nat)>
  {
    PairsFrom(|boxes|, (p: nat, q: nat) => p < |boxes| && q < |boxes| && Fighting(boxes[p], boxes[q], mag, cfg), 0)
  }

  /** The `if violence.enabled and len(person_boxes) >= 2` block: one
      VIOLENCE emission per fighting pair, carrying the union box. */
  function ViolenceRule(boxes: seq<Box>, mag: Grid, cfg: ViolenceConfig): (r: seq<Emission>)
    ensures !(cfg.enabled && |boxes| >= 2) ==> r == []
    ensures forall k :: 0 <= k < |r| ==> r[k].kind == ViolenceLabel
  {
    if cfg.enabled && |boxes| >= 2 then
      var ps := ViolencePairs(boxes, mag, cfg);
      seq(|ps|, k requires 0 <= k < |ps| => Emission(ViolenceLabel, UnionBox(boxes[ps[k].0], boxes[ps[k].1])))
    else []
  }

  // ------------------------------------------------------------------- infer

  /** `infer(frame, person_boxes)` with the frame already converted to grey
      and optical flow supplied as `flow`. The motion baseline is updated on
      every call, whether or not any rule is enabled. */
  function Infer(rec: Recognizer, gray: Gray, boxes: seq<Box>, cfg: ActionConfig, flow: (Gray, Gray) -> Grid): (Recognizer, seq<Emission>)
  {
    var motion := UpdateMotion(rec.prevGray, gray, flow);
    var fall := FallRule(rec.fallCounter, boxes, cfg.fall);
    (Recognizer(fall.0, motion.1), fall.1 + ViolenceRule(boxes, motion.0, cfg.violence))
  }

  /** The fall counter rule of one `infer` call: a visited index becomes
      old + 1 (absent = 0) when its box is lying down and 0 otherwise; indices
      outside `0 .. |boxes|-1`, and all indices when the rule is off, keep
      their entries. */
  lemma InferFallCounter(rec: Recognizer, gray: Gray, boxes: seq<Box>, cfg: ActionConfig, flow: (Gray, Gray) -> Grid)
    ensures var c := Infer(rec, gray, boxes, cfg, flow).0.fallCounter;
      && (cfg.fall.enabled ==> forall i :: 0 <= i < |boxes| ==>
            && i in c
            && c[i] == (if LyingDown(boxes[i], cfg.fall.aspectRatio) then GetOr(rec.fallCounter, i, 0) + 1 else 0))
      && (forall k :: (!cfg.fall.enabled || k < 0 || k >= |boxes|) ==> (k in c <==> k in rec.fallCounter))
      && (forall k :: (!cfg.fall.enabled || k < 0 || k >= |boxes|) && k in rec.fallCounter ==> c[k] == rec.fallCounter[k])
  {
  }

  /** The motion baseline after `infer` is the grey frame it was given, and
      the very first call sees an all-zero motion field. */
  lemma InferBaseline(rec: Recognizer, gray: Gray, boxes: seq<Box>, cfg: ActionConfig, flow: (Gray, Gray) -> Grid)
    ensures Infer(rec, gray, boxes, cfg, flow).0.prevGray == Some(gray)
    ensures rec.prevGray.None? ==> Infer(rec, gray, boxes, cfg, flow).1 == FallRule(rec.fallCounter, boxes, cfg.fall).1 + ViolenceRule(boxes, ZerosLike(gray), cfg.violence)
  {
  }

  /** Output layout and the level-triggered FALL rule: the output starts with
      one FALL emission per index whose updated counter is at least
      `min_frames`, in index order, and everything after them is VIOLENCE. */
  lemma {:induction false} InferOutputOrder(rec: Recognizer, gray: Gray, boxes: seq<Box>, cfg: ActionConfig, flow: (Gray, Gray) -> Grid)
    ensures var r := Infer(rec, gray, boxes, cfg, flow);
      var c := r.0.fallCounter;
      var idx := if cfg.fall.enabled then FallIndices(c, cfg.fall.minFrames, |boxes|) else [];
      && |idx| <= |r.1|
      && (forall k :: 0 <= k < |idx| ==> idx[k] < |boxes| && r.1[k] == Emission(FallLabel, boxes[idx[k]]))
      && (forall k, l :: 0 <= k < l < |idx| ==> idx[k] < idx[l])
      && (cfg.fall.enabled ==> forall i: nat :: i < |boxes| ==> (i in idx <==> c[i] >= cfg.fall.minFrames))
      && (forall k :: |idx| <= k < |r.1| ==> r.1[k].kind == ViolenceLabel)
  {
    var r := Infer(rec, gray, boxes, cfg, flow);
    var motion := UpdateMotion(rec.prevGray, gray, flow);
    var fall := FallRule(rec.fallCounter, boxes, cfg.fall);
    var v := ViolenceRule(boxes, motion.0, cfg.violence);
    assert r.1 == fall.1 + v;
  }

  /** `infer` only ever emits the two action labels. */
  lemma InferKinds(rec: Recognizer, gray: Gray, boxes: seq<Box>, cfg: ActionConfig, flow: (Gray, Gray) -> Grid)
    ensures var out := Infer(rec, gray, boxes, cfg, flow).1;
      forall k :: 0 <= k < |out| ==> out[k].kind == FallLabel || out[k].kind == ViolenceLabel
  {
    InferOutputOrder(rec, gray, boxes, cfg, flow);
  }

  /** The first call after construction: the all-zero motion field never
      reaches a positive `motion_mag`, so no VIOLENCE; and every counter is
      at most 1, so no FALL unless `min_frames <= 1`. */
  lemma FirstCallQuiet(gray: Gray, boxes: seq<Box>, cfg: ActionConfig, flow: (Gray, Gray) -> Grid)
    ensures var out := Infer(Fresh, gray, boxes, cfg, flow).1;
      && (cfg.violence.motionMag > 0.0 ==> forall k :: 0 <= k < |out| ==> out[k].kind == FallLabel)
      && (cfg.fall.minFrames > 1 ==> forall k :: 0 <= k < |out| ==> out[k].kind == ViolenceLabel)
  {
    var z := ZerosLike(gray);
    var fall := FallRule(map[], boxes, cfg.fall);
    var v := ViolenceRule(boxes, z, cfg.violence);
    assert Infer(Fresh, gray, boxes, cfg, flow).1 == fall.1 + v;
    if cfg.violence.motionMag > 0.0 {
      QuietFieldNoPairs(boxes, z, cfg.violence);
    }
    if cfg.fall.minFrames > 1 && cfg.fall.enabled {
      var c := FallCounters(map[], boxes, cfg.fall.aspectRatio, |boxes|);
      FallIndicesNone(c, cfg.fall.minFrames, |boxes|);
    }
  }

  /** No index qualifies for FALL while every counter is below `minFrames`. */
  lemma {:induction false} FallIndicesNone(c: map<int, int>, minFrames: int, n: nat)
    requires forall i :: 0 <= i < n && i in c ==> c[i] < minFrames
    ensures FallIndices(c, minFrames, n) == []
    decreases n
  {
    if n > 0 {
      FallIndicesNone(c, minFrames, n - 1);
    }
  }

  /** A field whose samples all lie below a positive `motion_mag` yields no
      fighting pair. */
  lemma QuietFieldNoPairs(boxes: seq<Box>, mag: Grid, cfg: ViolenceConfig)
    requires forall i, j :: 0 <= i < |mag| && 0 <= j < |mag[i]| ==> mag[i][j] < cfg.motionMag
    ensures ViolenceRule(boxes, mag, cfg) == []
  {
    var test := (p: nat, q: nat) => p < |boxes| && q < |boxes| && Fighting(boxes[p], boxes[q], mag, cfg);
    forall p: nat, q: nat
      ensures !test(p, q)
    {
      if p < |boxes| && q < |boxes| {
        var o := Overlap(boxes[p], boxes[q]);
        RoiBelow(mag, o.y1, o.y2, o.x1, o.x2, cfg.motionMag);
        MeanBelow(Roi(mag, o.y1, o.y2, o.x1, o.x2), cfg.motionMag);
      }
    }
    PairsNone(|boxes|, test, 0);
    assert ViolencePairs(boxes, mag, cfg) == PairsFrom(|boxes|, test, 0);
  }

  /** With a test no pair passes, both loops yield nothing. */
  lemma {:induction false} PairsNone(n: nat, test: (nat, nat) -> bool, i: nat)
    requires i <= n
    requires forall p: nat, q: nat :: !test(p, q)
    ensures PairsFrom(n, test, i) == []
    decreases n - i
  {
    if i < n {
      RowNone(n, test, i, i + 1);
      PairsNone(n, test, i + 1);
    }
  }

  lemma {:induction false} RowNone(n: nat, test: (nat, nat) -> bool, i: nat, j: nat)
    requires i < j <= n
    requires forall p: nat, q: nat :: !test(p, q)
    ensures RowPairs(n, test, i, j) == []
    decreases n - j
  {
    if j < n {
      RowNone(n, test, i, j + 1);
    }
  }

  /** No VIOLENCE emission when the rule is off or fewer than two people are
      present. */
  lemma NoViolenceWithoutPair(rec: Recognizer, gray: Gray, boxes: seq<Box>, cfg: ActionConfig, flow: (Gray, Gray) -> Grid)
    requires !cfg.violence.enabled || |boxes| < 2
    ensures forall e :: e in Infer(rec, gray, boxes, cfg, flow).1 ==> e.kind == FallLabel
  {
    var fall := FallRule(rec.fallCounter, boxes, cfg.fall);
    assert Infer(rec, gray, boxes, cfg, flow).1 == fall.1;
  }

  /** The VIOLENCE emissions correspond one-to-one, in `(i, j)` loop order, to
      the pairs `i < j` that pass the proximity and motion tests, and each
      carries the union box of its pair. */
  lemma {:induction false} ViolenceExact(boxes: seq<Box>, mag: Grid, cfg: ViolenceConfig)
    requires cfg.enabled && |boxes| >= 2
    ensures var r := ViolenceRule(boxes, mag, cfg);
      var ps := ViolencePairs(boxes, mag, cfg);
      && |r| == |ps|
      && (forall k :: 0 <= k < |ps| ==>
            && ps[k].0 < ps[k].1 < |boxes|
            && Iou(boxes[ps[k].0], boxes[ps[k].1]) >= cfg.proximityIou
            && RegionMean(mag, boxes[ps[k].0], boxes[ps[k].1]).Some?
            && RegionMean(mag, boxes[ps[k].0], boxes[ps[k].1]).value >= cfg.motionMag
            && r[k] == Emission(ViolenceLabel, UnionBox(boxes[ps[k].0], boxes[ps[k].1])))
      && (forall i: nat, j: nat :: i < j < |boxes| && Fighting(boxes[i], boxes[j], mag, cfg) ==> (i, j) in ps)
      && (forall k, l :: 0 <= k < l < |ps| ==> LexLess(ps[k], ps[l]))
  {
  }

  /** A pair below the IoU threshold, or whose overlap is too still, is never
      reported, whatever else is in the frame. */
  lemma {:induction false} ViolenceNeedsBoth(boxes: seq<Box>, mag: Grid, cfg: ViolenceConfig, i: nat, j: nat)
    requires i < j < |boxes|
    requires Iou(boxes[i], boxes[j]) < cfg.proximityIou
      || RegionMean(mag, boxes[i], boxes[j]).None?
      || RegionMean(mag, boxes[i], boxes[j]).value < cfg.motionMag
    ensures (i, j) !in ViolencePairs(boxes, mag, cfg)
  {
  }

  // --------------------------------------------------------- several frames

  /** The fall counters after running the fall rule over a series of frames. */
  function RunFall(counter: map<int, int>, frames: seq<seq<Box>>, cfg: FallConfig): map<int, int>
    decreases |frames|
  {
    if |frames| == 0 then counter
    else FallRule(RunFall(counter, frames[..|frames| - 1], cfg), frames[|frames| - 1], cfg).0
  }

  /** While box `i` stays lying down for `m` consecutive frames, its counter
      climbs by exactly `m`; so starting from zero (or a reset) the FALL alert
      first appears on frame `min_frames` and repeats after that. */
  lemma {:induction false} ConsecutiveFalls(counter: map<int, int>, frames: seq<seq<Box>>, cfg: FallConfig, i: nat)
    requires cfg.enabled
    requires forall f :: 0 <= f < |frames| ==> i < |frames[f]| && LyingDown(frames[f][i], cfg.aspectRatio)
    ensures var c := RunFall(counter, frames, cfg);
      (|frames| > 0 ==> i in c) && GetOr(c, i, 0) == GetOr(counter, i, 0) + |frames|
    decreases |frames|
  {
    if |frames| > 0 {
      var init := frames[..|frames| - 1];
      ConsecutiveFalls(counter, init, cfg, i);
    }
  }

  /** One frame in which box `i` is upright sends its counter back to 0. */
  lemma FallReset(counter: map<int, int>, boxes: seq<Box>, cfg: FallConfig, i: nat)
    requires cfg.enabled && i < |boxes| && !LyingDown(boxes[i], cfg.aspectRatio)
    ensures i in FallRule(counter, boxes, cfg).0 && FallRule(counter, boxes, cfg).0[i] == 0
  {
  }
}

=== FILE: alerting.dfy ===
/** The alert notifier (alerting/notifier.py): a per-label cooldown map with
    the clock passed in as `now`, snapshots and the SMS as an event trace. */
module Alerting {
  import opened Common
  import opened Geometry
  import opened Frames
  import opened Text

  /** `AlertNotifier`: cooldown in seconds, snapshot directory and the
      last time each label passed the throttle. */
  datatype AlertNotifier = AlertNotifier(cooldown: real, snapshotDir: string, lastTime: map<string, real>)

  /** A notifier right after construction: no label has passed yet. */
  function NewNotifier(cooldown: real, snapshotDir: string): AlertNotifier
  {
    AlertNotifier(cooldown, snapshotDir, map[])
  }

  /** The `snapshot_dir` default, which the camera keeps. */
  const DefaultSnapshotDir: string := "events"

  /** What `notify` does outside itself. */
  datatype Effect =
    | SnapshotWritten(dir: string, filename: string, image: Frame)
    | SmsSent(message: string)

  /** What `notify` returns: `False`, `None` or the snapshot file name. */
  datatype NotifyResult = Suppressed | NoSnapshot | Snapshot(filename: string)

  /** `_throttle(key)` at time `now`: passes when at least `cooldown` seconds
      have elapsed since the key last passed (never passed = time 0), and then
      records `now` for that key only. */
  function Throttle(n: AlertNotifier, key: string, now: real): (r: (bool, AlertNotifier))
    ensures r.0 <==> now - GetOr(n.lastTime, key, 0.0) >= n.cooldown
    ensures r.1.cooldown == n.cooldown && r.1.snapshotDir == n.snapshotDir
    ensures r.0 ==> key in r.1.lastTime && r.1.lastTime[key] == now
    ensures !r.0 ==> r.1 == n
    ensures r.1.lastTime.Keys == n.lastTime.Keys + (if r.0 then {key} else {})
    ensures forall k :: k in n.lastTime && k != key ==> r.1.lastTime[k] == n.lastTime[k]
  {
    var t0 := GetOr(n.lastTime, key, 0.0);
    if now - t0 >= n.cooldown then (true, n.(lastTime := n.lastTime[key := now])) else (false, n)
  }

  /** `f"{label.replace('/', '_')}_{ts}.jpg"` */
  function SnapshotName(alertLabel: string, ts: string): string
  {
    Sanitize(alertLabel) + "_" + ts + ".jpg"
  }

  /** `f"ALERT: {label} detected."` */
  function AlertMessage(alertLabel: string): string
  {
    "ALERT: " + alertLabel + " detected."
  }

  /** The snapshot name never names a sub-directory when the timestamp has
      no separator in it, and it always ends in `.jpg`. */
  lemma SnapshotNameFlat(alertLabel: string, ts: string)
    requires '/' !in ts
    ensures '/' !in SnapshotName(alertLabel, ts)
    ensures EndsWith(SnapshotName(alertLabel, ts), ".jpg")
  {
  }

  /** `notify(label, frame, box)` at time `now` with `strftime` result `ts`. */
  function Notify(n: AlertNotifier, alertLabel: string, frame: Option<Frame>, box: Option<Box>, now: real, ts: string)
    : (r: (AlertNotifier, seq<Effect>, NotifyResult))
    ensures r.0 == Throttle(n, alertLabel, now).1
    ensures !Throttle(n, alertLabel, now).0 <==> r.2.Suppressed?
    ensures r.2.Suppressed? ==> r.1 == []
    ensures !r.2.Suppressed? ==> |r.1| >= 1 && r.1[|r.1| - 1] == SmsSent(AlertMessage(alertLabel))
    ensures r.2.NoSnapshot? <==> !r.2.Suppressed? && frame.None?
    ensures r.2.NoSnapshot? ==> r.1 == [SmsSent(AlertMessage(alertLabel))]
    ensures r.2.Snapshot? ==> r.2.filename == SnapshotName(alertLabel, ts)
    ensures r.2.Snapshot? ==> r.1 == [SnapshotWritten(n.snapshotDir, r.2.filename, Annotate(frame.value, alertLabel, box)), SmsSent(AlertMessage(alertLabel))]
  {
    var th := Throttle(n, alertLabel, now);
    if !th.0 then (n, [], Suppressed)
    else
      var sms := SmsSent(AlertMessage(alertLabel));
      match frame
      case None => (th.1, [sms], NoSnapshot)
      case Some(f) =>
        var filename := SnapshotName(alertLabel, ts);
        (th.1, [SnapshotWritten(th.1.snapshotDir, filename, Annotate(f, alertLabel, box)), sms], Snapshot(filename))
  }

  /** The snapshot image: a copy of the frame with the box and label drawn in
      red when a box was given; the caller's frame is left as it is. */
  function Annotate(f: Frame, alertLabel: string, box: Option<Box>): (g: Frame)
    ensures g.pixels == f.pixels
    ensures box.None? ==> g == f
    ensures box.Some? ==> g.overlays == f.overlays + [Rectangle(box.value, Red), Text(alertLabel, box.value.x1, Max(0, box.value.y1 - 6), Red)]
  {
    match box
    case None => f
    case Some(b) => DrawBox(f, b, alertLabel, Red)
  }

  /** The first call on a new notifier passes exactly when the clock has
      reached `cooldown` (an unseen label counts as last passed at time 0);
      then a frame's snapshot goes to the `events` directory by default. */
  lemma FirstAlert(cooldown: real, alertLabel: string, f: Frame, box: Option<Box>, now: real, ts: string)
    ensures var r := Notify(NewNotifier(cooldown, DefaultSnapshotDir), alertLabel, Some(f), box, now, ts);
      && (r.2.Suppressed? <==> now < cooldown)
      && (now >= cooldown ==> r.1[0] == SnapshotWritten("events", SnapshotName(alertLabel, ts), Annotate(f, alertLabel, box)))
  {
  }

  /** Number of SMS messages in a trace. */
  function SmsCount(effects: seq<Effect>): nat
  {
    if |effects| == 0 then 0
    else SmsCount(effects[..|effects| - 1]) + (if effects[|effects| - 1].SmsSent? then 1 else 0)
  }

  lemma {:induction false} SmsCountAppend(a: seq<Effect>, b: seq<Effect>)
    ensures SmsCount(a + b) == SmsCount(a) + SmsCount(b)
    decreases |b|
  {
    if |b| == 0 {
      assert a + b == a;
    } else {
      assert (a + b)[..|a + b| - 1] == a + b[..|b| - 1];
      SmsCountAppend(a, b[..|b| - 1]);
    }
  }

  /** A call sends exactly one SMS when it passes the throttle, none otherwise. */
  lemma NotifySms(n: AlertNotifier, alertLabel: string, frame: Option<Frame>, box: Option<Box>, now: real, ts: string)
    ensures SmsCount(Notify(n, alertLabel, frame, box, now, ts).1) == (if Throttle(n, alertLabel, now).0 then 1 else 0)
  {
    var r := Notify(n, alertLabel, frame, box, now, ts);
    if r.2.NoSnapshot? {
      assert SmsCount(r.1) == SmsCount([]) + 1;
    } else if r.2.Snapshot? {
      assert r.1[..1] == [r.1[0]];
      assert SmsCount(r.1[..1]) == SmsCount([]) + 0;
    }
  }

  /** Two calls for the same label less than `cooldown` apart send at most one
      SMS between them, in either clock order. */
  lemma TwoCallsOneSms(n: AlertNotifier, alertLabel: string, f1: Option<Frame>, b1: Option<Box>, t1: real, ts1: string,
                       f2: Option<Frame>, b2: Option<Box>, t2: real, ts2: string)
    requires t2 - t1 < n.cooldown
    ensures var r1 := Notify(n, alertLabel, f1, b1, t1, ts1);
      var r2 := Notify(r1.0, alertLabel, f2, b2, t2, ts2);
      SmsCount(r1.1) + SmsCount(r2.1) <= 1
  {
    var r1 := Notify(n, alertLabel, f1, b1, t1, ts1);
    NotifySms(n, alertLabel, f1, b1, t1, ts1);
    NotifySms(r1.0, alertLabel, f2, b2, t2, ts2);
  }

  /** `notify` for one label at each of the given times, in order. */
  function NotifyAt(n: AlertNotifier, alertLabel: string, frame: Option<Frame>, box: Option<Box>, times: seq<real>, ts: string)
    : (AlertNotifier, seq<Effect>)
    decreases |times|
  {
    if |times| == 0 then (n, [])
    else
      var r := Notify(n, alertLabel, frame, box, times[0], ts);
      var rest := NotifyAt(r.0, alertLabel, frame, box, times[1..], ts);
      (rest.0, r.1 + rest.1)
  }

  lemma {:induction false} QuietWindow(n: AlertNotifier, alertLabel: string, frame: Option<Frame>, box: Option<Box>, times: seq<real>, ts: string)
    requires alertLabel in n.lastTime
    requires forall k :: 0 <= k < |times| ==> times[k] - n.lastTime[alertLabel] < n.cooldown
    ensures NotifyAt(n, alertLabel, frame, box, times, ts) == (n, [])
    decreases |times|
  {
    if |times| > 0 {
      var r := Notify(n, alertLabel, frame, box, times[0], ts);
      assert r.0 == n && r.1 == [];
      assert forall k :: 0 <= k < |times[1..]| ==> times[1..][k] == times[k + 1];
      QuietWindow(n, alertLabel, frame, box, times[1..], ts);
      var rest := NotifyAt(r.0, alertLabel, frame, box, times[1..], ts);
      assert NotifyAt(n, alertLabel, frame, box, times, ts) == (rest.0, r.1 + rest.1);
      assert rest.0 == n;
      assert rest.1 == [];
      assert r.1 + rest.1 == [];
    }
  }

  /** Any burst of calls for one label whose times all lie less than
      `cooldown` apart sends at most one SMS, and exactly one when the label
      was ready to fire at the first of them. */
  lemma {:induction false} BurstSendsOnce(n: AlertNotifier, alertLabel: string, frame: Option<Frame>, box: Option<Box>, times: seq<real>, ts: string)
    requires forall k, l :: 0 <= k < l < |times| ==> times[l] - times[k] < n.cooldown
    ensures SmsCount(NotifyAt(n, alertLabel, frame, box, times, ts).1) <= 1
    ensures |times| > 0 && Throttle(n, alertLabel, times[0]).0 ==> SmsCount(NotifyAt(n, alertLabel, frame, box, times, ts).1) == 1
    decreases |times|
  {
    if |times| > 0 {
      var r := Notify(n, alertLabel, frame, box, times[0], ts);
      var rest := NotifyAt(r.0, alertLabel, frame, box, times[1..], ts);
      NotifySms(n, alertLabel, frame, box, times[0], ts);
      SmsCountAppend(r.1, rest.1);
      if Throttle(n, alertLabel, times[0]).0 {
        assert forall k :: 0 <= k < |times[1..]| ==> times[1..][k] - r.0.lastTime[alertLabel] < n.cooldown by {
          forall k | 0 <= k < |times[1..]|
            ensures times[1..][k] - r.0.lastTime[alertLabel] < n.cooldown
          {
            assert times[1..][k] == times[k + 1];
          }
        }
        QuietWindow(r.0, alertLabel, frame, box, times[1..], ts);
        assert SmsCount(rest.1) == 0;
      } else {
        assert r.0 == n;
        BurstSendsOnce(n, alertLabel, frame, box, times[1..], ts);
      }
    }
  }
}

=== FILE: camera.dfy ===
/** One iteration of `VideoProcessor.gen_frames` (camera.py:26-76) as a pure
    step: the frame read, the detector's answer, the clock and the OpenCV
    numerics come in; the new analytic state, the notify calls in order, the
    notifier's effects, the annotated frame and the stream chunk come out. */
module Camera {
  import opened Common
  import opened Geometry
  import opened Motion
  import opened Actions
  import opened Frames
  import opened Alerting
  import opened Detectors
  import opened Multipart

  const IntruderLabel: string := "INTRUDER"

  /** Prefix of the diagnostic drawn when the detector raises. */
  const DetectorErrorPrefix: string := "Detector error: "

  /** `cfg['intruder']['enabled']`, `cfg['video']['draw']` and the rule
      configuration handed to the recogniser. */
  datatype CameraConfig = CameraConfig(intruderEnabled: bool, draw: bool, actions: ActionConfig)

  /** The foreign computations of an iteration: `cvtColor` to grey, dense
      optical-flow magnitude, `imencode` (which may fail) and the
      `{conf:.2f}` formatting. */
  datatype Env = Env(
    toGray: Frame -> Gray,
    flow: (Gray, Gray) -> Grid,
    encode: Frame -> Option<seq<byte>>,
    formatConf: real -> string)

  /** The analytic state the generator keeps between iterations. */
  datatype Pipeline = Pipeline(recognizer: Recognizer, notifier: AlertNotifier)

  /** One `notifier.notify(label, frame, box)` invocation. */
  datatype Call = Call(callLabel: string, box: Box)

  datatype Step = Step(
    next: Pipeline,
    calls: seq<Call>,
    effects: seq<Effect>,
    frame: Option<Frame>,
    chunk: Option<seq<byte>>)

  /** `str(cls) == 'person' or str(cls) == '0'` */
  predicate IsPerson(d: Detection)
  {
    d.cls == "person" || d.cls == "0"
  }

  predicate IsOther(d: Detection)
  {
    !IsPerson(d)
  }

  function Boxes(dets: seq<Detection>): (r: seq<Box>)
    ensures |r| == |dets| && forall k :: 0 <= k < |r| ==> r[k] == dets[k].box
  {
    seq(|dets|, k requires 0 <= k < |dets| => dets[k].box)
  }

  /** `person_boxes` */
  function PersonBoxes(dets: seq<Detection>): seq<Box>
  {
    Boxes(Filter(IsPerson, dets))
  }

  /** The detections the last drawing pass visits. */
  function NonPersons(dets: seq<Detection>): seq<Detection>
  {
    Filter(IsOther, dets)
  }

  /** The two passes split the detections: every detection is in exactly
      one of them, and each side is exactly the detections of its kind. */
  lemma PartitionDetections(dets: seq<Detection>)
    ensures multiset(Filter(IsPerson, dets)) + multiset(NonPersons(dets)) == multiset(dets)
    ensures |PersonBoxes(dets)| + |NonPersons(dets)| == |dets|
    ensures forall d :: d in Filter(IsPerson, dets) ==> IsPerson(d) && d in dets
    ensures forall d :: d in NonPersons(dets) ==> !IsPerson(d) && d in dets
  {
    var ps := Filter(IsPerson, dets);
    var os := NonPersons(dets);
    FilterSplit(IsPerson, IsOther, dets);
    forall d | d in ps
      ensures d in dets
    {
      assert d in multiset(ps);
    }
    forall d | d in os
      ensures d in dets
    {
      assert d in multiset(os);
    }
  }

  /** Both passes keep detection order: they distribute over concatenation. */
  lemma PartitionKeepsOrder(dets: seq<Detection>, more: seq<Detection>)
    ensures PersonBoxes(dets + more) == PersonBoxes(dets) + PersonBoxes(more)
    ensures NonPersons(dets + more) == NonPersons(dets) + NonPersons(more)
  {
    FilterAppend(IsPerson, dets, more);
    FilterAppend(IsOther, dets, more);
    BoxesAppend(Filter(IsPerson, dets), Filter(IsPerson, more));
  }

  lemma BoxesAppend(a: seq<Detection>, b: seq<Detection>)
    ensures Boxes(a + b) == Boxes(a) + Boxes(b)
  {
  }

  /** HOG output is all people, and a YOLO box of class 0 without a name
      table is a person too. */
  lemma DetectorsProducePeople(rects: seq<Rect>, weights: seq<real>, p: Prediction)
    requires p.clsId == 0
    ensures PersonBoxes(HogDetections(rects, weights)) == Boxes(HogDetections(rects, weights))
    ensures IsPerson(YoloDetections([p], None)[0])
  {
    var h := HogDetections(rects, weights);
    FilterAll(IsPerson, h);
  }

  /** The notifier after throttling each call in turn, and how many of the
      calls passed: the alerting half of a notify loop, without frames. */
  function ThrottleEach(n: AlertNotifier, calls: seq<Call>, now: real): (AlertNotifier, nat)
    decreases |calls|
  {
    if |calls| == 0 then (n, 0)
    else
      var th := Throttle(n, calls[0].callLabel, now);
      var rest := ThrottleEach(th.1, calls[1..], now);
      (rest.0, rest.1 + (if th.0 then 1 else 0))
  }

  /** The overlays the loop draws: each call's box, captioned with its label. */
  function CallMarks(calls: seq<Call>, color: Color): seq<Overlay>
    decreases |calls|
  {
    if |calls| == 0 then []
    else BoxMarks(calls[0].box, calls[0].callLabel, color) + CallMarks(calls[1..], color)
  }

  /** The notify-then-draw loop shared by the intruder and action passes:
      each call snapshots the frame as drawn so far, then (with drawing on)
      its own box is added. The notifier ends as throttling the calls alone
      leaves it, and one SMS goes out per call that passes. */
  function NotifyEach(n: AlertNotifier, f: Frame, calls: seq<Call>, color: Color, draw: bool, now: real, ts: string)
    : (r: (AlertNotifier, Frame, seq<Effect>))
    ensures r.1.pixels == f.pixels
    ensures !draw ==> r.1 == f
    ensures draw ==> r.1.overlays == f.overlays + CallMarks(calls, color)
    ensures r.0 == ThrottleEach(n, calls, now).0
    ensures SmsCount(r.2) == ThrottleEach(n, calls, now).1
    ensures r.0.cooldown == n.cooldown && r.0.snapshotDir == n.snapshotDir
    ensures |calls| == 0 ==> r == (n, f, [])
    decreases |calls|
  {
    if |calls| == 0 then (n, f, [])
    else
      var c := calls[0];
      var res := Notify(n, c.callLabel, Some(f), Some(c.box), now, ts);
      var f1 := if draw then DrawBox(f, c.box, c.callLabel, color) else f;
      var rest := NotifyEach(res.0, f1, calls[1..], color, draw, now, ts);
      NotifySms(n, c.callLabel, Some(f), Some(c.box), now, ts);
      SmsCountAppend(res.1, rest.2);
      ConcatAssoc(f.overlays, BoxMarks(c.box, c.callLabel, color), CallMarks(calls[1..], color));
      (rest.0, rest.1, res.1 + rest.2)
  }

  /** A snapshot shows the boxes drawn by earlier calls of the iteration:
      with drawing on, when the second of two calls passes the throttle, its
      snapshot holds the first call's box and caption under its own red box. */
  lemma LaterSnapshotShowsEarlierBox(n: AlertNotifier, f: Frame, c0: Call, c1: Call, color: Color, now: real, ts: string)
    requires Throttle(Throttle(n, c0.callLabel, now).1, c1.callLabel, now).0
    ensures var r := NotifyEach(n, f, [c0, c1], color, true, now, ts);
      && |r.2| >= 2
      && r.2[|r.2| - 2] == SnapshotWritten(n.snapshotDir, SnapshotName(c1.callLabel, ts),
           Frame(f.pixels, f.overlays + BoxMarks(c0.box, c0.callLabel, color) + BoxMarks(c1.box, c1.callLabel, Red)))
  {
    var res0 := Notify(n, c0.callLabel, Some(f), Some(c0.box), now, ts);
    var f1 := DrawBox(f, c0.box, c0.callLabel, color);
    var res1 := Notify(res0.0, c1.callLabel, Some(f1), Some(c1.box), now, ts);
    assert [c0, c1][1..] == [c1];
    assert [c1][1..] == [];
    var rest1 := NotifyEach(res0.0, f1, [c1], color, true, now, ts);
    assert rest1.2 == res1.1 + [];
    assert NotifyEach(n, f, [c0, c1], color, true, now, ts).2 == res0.1 + rest1.2;
  }

  /** The caption of a non-person detection: `f"{cls}:{conf:.2f}"`. */
  function OtherCaption(d: Detection, formatConf: real -> string): string
  {
    d.cls + ":" + formatConf(d.conf)
  }

  /** The overlays of the last pass: each detection's box in cyan. */
  function OtherMarks(dets: seq<Detection>, formatConf: real -> string): seq<Overlay>
    decreases |dets|
  {
    if |dets| == 0 then []
    else BoxMarks(dets[0].box, OtherCaption(dets[0], formatConf), Cyan) + OtherMarks(dets[1..], formatConf)
  }

  /** `for (x1,y1,x2,y2,cls,conf) in detections: if not person and draw: ...`
      With drawing on it draws exactly the non-person detections, in order. */
  function DrawOthers(f: Frame, dets: seq<Detection>, draw: bool, formatConf: real -> string): (g: Frame)
    ensures g.pixels == f.pixels
    ensures !draw ==> g == f
    ensures draw ==> g.overlays == f.overlays + OtherMarks(NonPersons(dets), formatConf)
    decreases |dets|
  {
    if |dets| == 0 then f
    else
      var d := dets[0];
      var f1 := if !IsPerson(d) && draw then DrawBox(f, d.box, OtherCaption(d, formatConf), Cyan) else f;
      OtherStep(f.overlays, dets, formatConf);
      DrawOthers(f1, dets[1..], draw, formatConf)
  }

  /** One step of the last pass: drawing the head detection when it is not
      a person, then the rest, draws the non-persons of the whole list. */
  lemma OtherStep(base: seq<Overlay>, dets: seq<Detection>, formatConf: real -> string)
    requires |dets| > 0
    ensures var d := dets[0];
      (if IsOther(d) then base + BoxMarks(d.box, OtherCaption(d, formatConf), Cyan) else base)
        + OtherMarks(NonPersons(dets[1..]), formatConf)
      == base + OtherMarks(NonPersons(dets), formatConf)
  {
    var d := dets[0];
    var tail := OtherMarks(NonPersons(dets[1..]), formatConf);
    NonPersonsCons(dets);
    if IsOther(d) {
      OtherMarksCons(d, NonPersons(dets[1..]), formatConf);
      ConcatAssoc(base, BoxMarks(d.box, OtherCaption(d, formatConf), Cyan), tail);
    } else {
      assert NonPersons(dets) == NonPersons(dets[1..]);
    }
  }

  lemma NonPersonsCons(dets: seq<Detection>)
    requires |dets| > 0
    ensures NonPersons(dets) == (if IsOther(dets[0]) then [dets[0]] else []) + NonPersons(dets[1..])
  {
    assert dets == [dets[0]] + dets[1..];
    FilterAppend(IsOther, [dets[0]], dets[1..]);
    FilterSingle(IsOther, dets[0]);
  }

  lemma OtherMarksCons(d: Detection, rest: seq<Detection>, formatConf: real -> string)
    ensures OtherMarks([d] + rest, formatConf) == BoxMarks(d.box, OtherCaption(d, formatConf), Cyan) + OtherMarks(rest, formatConf)
  {
    assert ([d] + rest)[1..] == rest;
  }

  function IntruderCalls(persons: seq<Box>): (r: seq<Call>)
    ensures |r| == |persons|
    ensures forall k :: 0 <= k < |r| ==> r[k] == Call(IntruderLabel, persons[k])
  {
    seq(|persons|, k requires 0 <= k < |persons| => Call(IntruderLabel, persons[k]))
  }

  function ActionCalls(out: seq<Emission>): (r: seq<Call>)
    ensures |r| == |out|
    ensures forall k :: 0 <= k < |r| ==> r[k] == Call(out[k].kind, out[k].box)
  {
    seq(|out|, k requires 0 <= k < |out| => Call(out[k].kind, out[k].box))
  }

  /** The detections of the iteration: none when the detector raised. */
  function Detected(detected: Result<seq<Detection>, string>): seq<Detection>
  {
    if detected.Ok? then detected.value else []
  }

  /** The frame after detection: with the red diagnostic when it raised. */
  function AfterDetection(f: Frame, detected: Result<seq<Detection>, string>): Frame
  {
    if detected.Err? then PutText(f, DetectorErrorPrefix + detected.error, 10, 20, Red) else f
  }

  /** The intruder pass (camera.py:50-55). */
  function IntruderPass(p: Pipeline, cfg: CameraConfig, f: Frame, detected: Result<seq<Detection>, string>, now: real, ts: string)
    : (AlertNotifier, Frame, seq<Effect>)
  {
    var persons := PersonBoxes(Detected(detected));
    var calls := if cfg.intruderEnabled then IntruderCalls(persons) else [];
    NotifyEach(p.notifier, AfterDetection(f, detected), calls, Green, cfg.draw, now, ts)
  }

  /** What the analytic part of an iteration leaves behind. */
  datatype Analysis = Analysis(next: Pipeline, calls: seq<Call>, effects: seq<Effect>, frame: Frame)

  /** Detection, the intruder pass, the recogniser, the action pass and the
      non-person drawing pass on a frame that was read (camera.py:38-69). */
  function Analyse(p: Pipeline, cfg: CameraConfig, env: Env, f: Frame,
                   detected: Result<seq<Detection>, string>, now: real, ts: string): Analysis
  {
    var dets := Detected(detected);
    var persons := PersonBoxes(dets);
    var intruderCalls := if cfg.intruderEnabled then IntruderCalls(persons) else [];
    var a := IntruderPass(p, cfg, f, detected, now, ts);
    var inf := Infer(p.recognizer, env.toGray(a.1), persons, cfg.actions, env.flow);
    var actionCalls := ActionCalls(inf.1);
    var b := NotifyEach(a.0, a.1, actionCalls, Red, cfg.draw, now, ts);
    Analysis(Pipeline(inf.0, b.0), intruderCalls + actionCalls, a.2 + b.2, DrawOthers(b.1, dets, cfg.draw, env.formatConf))
  }

  /** One loop iteration. A failed read (`read == None`) changes nothing and
      yields nothing (the source sleeps and retries); otherwise the annotated
      frame is encoded once and, if that succeeds, framed as a chunk. */
  function FrameStep(p: Pipeline, cfg: CameraConfig, env: Env, read: Option<Frame>,
                     detected: Result<seq<Detection>, string>, now: real, ts: string): (s: Step)
    ensures read.None? ==> s == Step(p, [], [], None, None)
    ensures read.Some? ==> s.frame.Some?
    ensures s.chunk.Some? <==> read.Some? && env.encode(s.frame.value).Some?
    ensures s.chunk.Some? ==> s.chunk.value == Chunk(env.encode(s.frame.value).value)
  {
    match read
    case None => Step(p, [], [], None, None)
    case Some(f) =>
      var a := Analyse(p, cfg, env, f, detected, now, ts);
      var payload := env.encode(a.frame);
      var chunk := if payload.Some? then Some(Chunk(payload.value)) else None;
      Step(a.next, a.calls, a.effects, Some(a.frame), chunk)
  }

  /** The recogniser runs exactly once per frame read, on the person boxes
      and on the frame as it stands after the intruder pass; its new state is
      kept. The calls are the intruder calls (when enabled) followed by one
      call per recogniser emission, in order. */
  lemma {:induction false} StepRunsInferOnce(p: Pipeline, cfg: CameraConfig, env: Env, f: Frame,
                                             detected: Result<seq<Detection>, string>, now: real, ts: string)
    ensures var s := FrameStep(p, cfg, env, Some(f), detected, now, ts);
      var persons := PersonBoxes(Detected(detected));
      var inf := Infer(p.recognizer, env.toGray(IntruderPass(p, cfg, f, detected, now, ts).1), persons, cfg.actions, env.flow);
      && s.next.recognizer == inf.0
      && s.calls == (if cfg.intruderEnabled then IntruderCalls(persons) else []) + ActionCalls(inf.1)
  {
    var s := FrameStep(p, cfg, env, Some(f), detected, now, ts);
    var a := Analyse(p, cfg, env, f, detected, now, ts);
    assert s.next == a.next && s.calls == a.calls;
  }

  /** With intruder alerting on, `INTRUDER` is notified once per person box,
      in order, and all of those calls come before any action call; with it
      off, no `INTRUDER` call is made at all. */
  lemma {:induction false} StepIntruderFirst(p: Pipeline, cfg: CameraConfig, env: Env, f: Frame,
                                             detected: Result<seq<Detection>, string>, now: real, ts: string)
    ensures var s := FrameStep(p, cfg, env, Some(f), detected, now, ts);
      var persons := PersonBoxes(Detected(detected));
      && (cfg.intruderEnabled ==> |persons| <= |s.calls| && forall k :: 0 <= k < |persons| ==> s.calls[k] == Call(IntruderLabel, persons[k]))
      && (forall k :: (if cfg.intruderEnabled then |persons| else 0) <= k < |s.calls| ==> s.calls[k].callLabel != IntruderLabel)
  {
    var persons := PersonBoxes(Detected(detected));
    var g := env.toGray(IntruderPass(p, cfg, f, detected, now, ts).1);
    StepRunsInferOnce(p, cfg, env, f, detected, now, ts);
    InferKinds(p.recognizer, g, persons, cfg.actions, env.flow);
    CallsLayout(cfg.intruderEnabled, persons, Infer(p.recognizer, g, persons, cfg.actions, env.flow).1);
  }

  lemma CallsLayout(enabled: bool, persons: seq<Box>, out: seq<Emission>)
    requires forall k :: 0 <= k < |out| ==> out[k].kind == FallLabel || out[k].kind == ViolenceLabel
    ensures var calls := (if enabled then IntruderCalls(persons) else []) + ActionCalls(out);
      && (enabled ==> |persons| <= |calls| && forall k :: 0 <= k < |persons| ==> calls[k] == Call(IntruderLabel, persons[k]))
      && (forall k :: (if enabled then |persons| else 0) <= k < |calls| ==> calls[k].callLabel != IntruderLabel)
  {
    assert FallLabel != IntruderLabel && ViolenceLabel != IntruderLabel;
  }

  /** Throttling a list of calls is throttling its first part and then the
      rest from where the first part left the notifier. */
  lemma {:induction false} ThrottleEachAppend(n: AlertNotifier, c1: seq<Call>, c2: seq<Call>, now: real)
    ensures var a := ThrottleEach(n, c1, now);
      var b := ThrottleEach(a.0, c2, now);
      ThrottleEach(n, c1 + c2, now) == (b.0, a.1 + b.1)
    decreases |c1|
  {
    if |c1| == 0 {
      assert c1 + c2 == c2;
    } else {
      assert (c1 + c2)[0] == c1[0] && (c1 + c2)[1..] == c1[1..] + c2;
      ThrottleEachAppend(Throttle(n, c1[0].callLabel, now).1, c1[1..], c2, now);
    }
  }

  /** The notifier state and the SMS traffic of an iteration are those of
      notifying exactly `s.calls`, in that order: the intruder calls and then
      the action calls go through one and the same throttle. */
  lemma {:induction false} StepNotifies(p: Pipeline, cfg: CameraConfig, env: Env, f: Frame,
                                        detected: Result<seq<Detection>, string>, now: real, ts: string)
    ensures var s := FrameStep(p, cfg, env, Some(f), detected, now, ts);
      && s.next.notifier == ThrottleEach(p.notifier, s.calls, now).0
      && SmsCount(s.effects) == ThrottleEach(p.notifier, s.calls, now).1
  {
    var s := FrameStep(p, cfg, env, Some(f), detected, now, ts);
    var an := Analyse(p, cfg, env, f, detected, now, ts);
    assert s.next == an.next && s.calls == an.calls && s.effects == an.effects;
    AnalyseNotifies(p, cfg, env, f, detected, now, ts);
  }

  /** `StepNotifies` on the analytic part of the iteration. */
  lemma AnalyseNotifies(p: Pipeline, cfg: CameraConfig, env: Env, f: Frame,
                        detected: Result<seq<Detection>, string>, now: real, ts: string)
    ensures var an := Analyse(p, cfg, env, f, detected, now, ts);
      && an.next.notifier == ThrottleEach(p.notifier, an.calls, now).0
      && SmsCount(an.effects) == ThrottleEach(p.notifier, an.calls, now).1
  {
    var persons := PersonBoxes(Detected(detected));
    var intruderCalls := if cfg.intruderEnabled then IntruderCalls(persons) else [];
    var a := IntruderPass(p, cfg, f, detected, now, ts);
    var inf := Infer(p.recognizer, env.toGray(a.1), persons, cfg.actions, env.flow);
    var actionCalls := ActionCalls(inf.1);
    var b := NotifyEach(a.0, a.1, actionCalls, Red, cfg.draw, now, ts);
    ThrottleEachAppend(p.notifier, intruderCalls, actionCalls, now);
    SmsCountAppend(a.2, b.2);
  }

  /** A detector failure behaves as an empty detection list: no person boxes,
      no notify call at all, the recogniser still runs once on `[]` (moving its
      motion baseline, leaving its counters alone), and the frame carries the
      red diagnostic. */
  lemma {:induction false} StepDetectorFailure(p: Pipeline, cfg: CameraConfig, env: Env, f: Frame, err: string, now: real, ts: string)
    ensures var s := FrameStep(p, cfg, env, Some(f), Err(err), now, ts);
      var marked := PutText(f, DetectorErrorPrefix + err, 10, 20, Red);
      && s.calls == []
      && s.effects == []
      && s.next.notifier == p.notifier
      && s.next.recognizer == Recognizer(p.recognizer.fallCounter, Some(env.toGray(marked)))
      && s.frame == Some(marked)
  {
    var marked := PutText(f, DetectorErrorPrefix + err, 10, 20, Red);
    var persons := PersonBoxes(Detected(Err(err)));
    assert persons == [];
    assert IntruderPass(p, cfg, f, Err(err), now, ts) == (p.notifier, marked, []);
    var g := env.toGray(marked);
    var inf := Infer(p.recognizer, g, [], cfg.actions, env.flow);
    InferOutputOrder(p.recognizer, g, [], cfg.actions, env.flow);
    assert inf.1 == [];
    var a := Analyse(p, cfg, env, f, Err(err), now, ts);
    assert a == Analysis(Pipeline(inf.0, p.notifier), [], [], marked);
  }

  /** The yielded chunk is the encoded frame between the fixed multipart
      header and trailer, and stripping them recovers it; a failed read or a
      failed encode yields nothing. */
  lemma StepChunk(p: Pipeline, cfg: CameraConfig, env: Env, read: Option<Frame>,
                  detected: Result<seq<Detection>, string>, now: real, ts: string)
    ensures var s := FrameStep(p, cfg, env, read, detected, now, ts);
      && (s.chunk.Some? <==> read.Some? && env.encode(s.frame.value).Some?)
      && (s.chunk.Some? ==> Unframe(s.chunk.value) == Some(env.encode(s.frame.value).value))
  {
    var s := FrameStep(p, cfg, env, read, detected, now, ts);
    if s.chunk.Some? {
      UnframeChunk(env.encode(s.frame.value).value);
    }
  }
}

=== FILE: common.dfy ===
/** Small shared vocabulary: optional values, results carrying an error, and
    the dictionary lookup-with-default that Python's `dict.get(k, d)` performs. */
module Common {

  /** A value that may be absent (Python's `None`). */
  datatype Option<+T> = None | Some(value: T)

  /** The outcome of a call that may raise: `Err` carries the exception text. */
  datatype Result<+T, +E> = Ok(value: T) | Err(error: E)

  /** `m.get(k, d)` */
  function GetOr<K, V>(m: map<K, V>, k: K, d: V): V
  {
    if k in m then m[k] else d
  }

  function Min(a: int, b: int): int { if a <= b then a else b }

  function Max(a: int, b: int): int { if a >= b then a else b }

  /** `[x for x in s if p(x)]` */
  function Filter<T(!new)>(p: T -> bool, s: seq<T>): (r: seq<T>)
    ensures |r| <= |s|
    ensures forall k :: 0 <= k < |r| ==> p(r[k])
    ensures forall x :: multiset(r)[x] == if p(x) then multiset(s)[x] else 0
    decreases |s|
  {
    if |s| == 0 then []
    else
      var init := s[..|s| - 1];
      var last := s[|s| - 1];
      assert s == init + [last];
      Filter(p, init) + (if p(last) then [last] else [])
  }

  /** Filtering keeps relative order: it distributes over concatenation. */
  lemma {:induction false} FilterAppend<T(!new)>(p: T -> bool, a: seq<T>, b: seq<T>)
    ensures Filter(p, a + b) == Filter(p, a) + Filter(p, b)
    decreases |b|
  {
    if |b| == 0 {
      assert a + b == a;
    } else {
      var init, last := b[..|b| - 1], b[|b| - 1];
      assert (a + b)[..|a + b| - 1] == a + init;
      assert (a + b)[|a + b| - 1] == last;
      assert b[..|b| - 1] == init;
      FilterAppend(p, a, init);
      var tail := if p(last) then [last] else [];
      assert Filter(p, b) == Filter(p, init) + tail;
      assert Filter(p, a + b) == Filter(p, a + init) + tail;
      ConcatAssoc(Filter(p, a), Filter(p, init), tail);
    }
  }

  /** Filtering a one-element sequence keeps it exactly when it passes. */
  lemma FilterSingle<T(!new)>(p: T -> bool, x: T)
    ensures Filter(p, [x]) == if p(x) then [x] else []
  {
    assert [x][..0] == [];
    assert Filter(p, [x]) == Filter(p, []) + (if p(x) then [x] else []);
  }

  /** A sequence whose every element passes is its own filter. */
  lemma {:induction false} FilterAll<T(!new)>(p: T -> bool, s: seq<T>)
    requires forall k :: 0 <= k < |s| ==> p(s[k])
    ensures Filter(p, s) == s
    decreases |s|
  {
    if |s| > 0 {
      var init, last := s[..|s| - 1], s[|s| - 1];
      assert p(last);
      FilterAll(p, init);
      assert Filter(p, s) == Filter(p, init) + [last];
      assert s == init + [last];
    }
  }

  lemma ConcatAssoc<T>(x: seq<T>, y: seq<T>, z: seq<T>)
    ensures x + (y + z) == (x + y) + z
  {
  }

  /** A predicate and its complement split a sequence: every element lands
      on exactly one side. */
  lemma FilterSplit<T(!new)>(p: T -> bool, q: T -> bool, s: seq<T>)
    requires forall x :: q(x) == !p(x)
    ensures multiset(Filter(p, s)) + multiset(Filter(q, s)) == multiset(s)
    ensures |Filter(p, s)| + |Filter(q, s)| == |s|
  {
    var a := Filter(p, s);
    var b := Filter(q, s);
    assert multiset(a) + multiset(b) == multiset(s);
    assert |multiset(a) + multiset(b)| == |multiset(s)|;
  }
}

=== FILE: detectors.dfy ===
/** Detector selection and result shaping (detector/yolo_detector.py). The
    HOG and YOLO inference calls are outside the model: their raw outputs are
    inputs here, and only the conversion to detection tuples is modelled. */
module Detectors {
  import opened Common
  import opened Geometry
  import opened Text

  /** `(x1, y1, x2, y2, cls, conf)` */
  datatype Detection = Detection(box: Box, cls: string, conf: real)

  datatype DetectorKind = MockHog | Yolo8

  /** The message of the `RuntimeError` raised when Ultralytics is missing. */
  const YoloMissing: string := "Ultralytics not installed. Use DETECTOR=mock or `pip install ultralytics`. Original: "

  /** `(kind or 'yolo').lower()`: `None` and the empty string fall back to
      `yolo`. */
  function NormalizedKind(kind: Option<string>): (r: string)
    ensures r != "" && Lower(r) == r
    ensures kind.Some? && kind.value != "" ==> |r| == |kind.value|
  {
    match kind
    case None => "yolo"
    case Some(k) =>
      if k == "" then "yolo"
      else
        LowerIdempotent(k);
        Lower(k)
  }

  /** `build_detector(kind)` minus the construction: `mock` in any letter
      case picks the HOG detector, every other value the YOLO detector. */
  function SelectKind(kind: Option<string>): (r: DetectorKind)
    ensures r == MockHog <==> kind.Some? && Lower(kind.value) == "mock"
    ensures kind.None? || kind.value == "" ==> r == Yolo8
  {
    if NormalizedKind(kind) == "mock" then MockHog else Yolo8
  }

  /** Letter case never changes the choice. */
  lemma SelectKindIgnoresCase(k: string)
    ensures SelectKind(Some(k)) == SelectKind(Some(Lower(k)))
  {
    LowerIdempotent(k);
  }

  /** `build_detector(kind)` with the two ways construction can raise as
      inputs: the import of Ultralytics (`importError` is its message) and
      the loading of the weights by `YOLO(model_name)` (`loadError`, `None`
      when they load). Selecting the HOG detector never raises; selecting
      YOLO raises on the import first, then on the load. */
  function BuildDetector(kind: Option<string>, ultralyticsAvailable: bool, importError: string, loadError: Option<string>)
    : (r: Result<DetectorKind, string>)
    ensures r.Ok? ==> r.value == SelectKind(kind)
    ensures r.Err? <==> SelectKind(kind) == Yolo8 && (!ultralyticsAvailable || loadError.Some?)
    ensures r.Err? && !ultralyticsAvailable ==> r.error == YoloMissing + importError
    ensures r.Err? && ultralyticsAvailable ==> r.error == loadError.value
  {
    var k := SelectKind(kind);
    if k == MockHog then Ok(k)
    else if !ultralyticsAvailable then Err(YoloMissing + importError)
    else if loadError.Some? then Err(loadError.value)
    else Ok(k)
  }

  // ------------------------------------------------------------ HOG output

  /** A HOG rectangle `(x, y, w, h)`. */
  datatype Rect = Rect(x: int, y: int, w: int, h: int)

  /** `(x, y, x+w, y+h)` */
  function RectToBox(r: Rect): Box
  {
    Box(r.x, r.y, r.x + r.w, r.y + r.h)
  }

  /** `MockHOGDetector.detect` after `detectMultiScale`: one person detection
      per `(rect, weight)` pair of `zip(rects, weights)`, which stops at the
      shorter list. */
  function HogDetections(rects: seq<Rect>, weights: seq<real>): (r: seq<Detection>)
    ensures |r| == Min(|rects|, |weights|)
    ensures forall k :: 0 <= k < |r| ==> r[k] == Detection(RectToBox(rects[k]), "person", weights[k])
  {
    var n := Min(|rects|, |weights|);
    seq(n, k requires 0 <= k < n => Detection(RectToBox(rects[k]), "person", weights[k]))
  }

  /** The corner form keeps the size: width and height are recovered, and a
      rectangle of non-negative size gives a well-formed box. */
  lemma RectToBoxKeepsSize(r: Rect)
    ensures RectToBox(r).x2 - RectToBox(r).x1 == r.w && RectToBox(r).y2 - RectToBox(r).y1 == r.h
    ensures r.w >= 0 && r.h >= 0 ==> WellFormed(RectToBox(r))
  {
  }

  // ----------------------------------------------------------- YOLO output

  /** One predicted box: `xyxy` as floats, class id, confidence. */
  datatype Prediction = Prediction(x1: real, y1: real, x2: real, y2: real, clsId: int, conf: real)

  /** Python's `int(float)`: truncation toward zero. */
  function Trunc(x: real): (t: int)
    ensures x >= 0.0 ==> t as real <= x < t as real + 1.0
    ensures x < 0.0 ==> t as real - 1.0 < x <= t as real
  {
    if x >= 0.0 then x.Floor else -((-x).Floor)
  }

  /** The class name: `names.get(cls_id, str(cls_id)) if names else str(cls_id)`.
      A missing or empty name table falls back to the decimal id. */
  function ClassName(names: Option<map<int, string>>, clsId: int): (r: string)
    ensures names.Some? && clsId in names.value ==> r == names.value[clsId]
    ensures (names.None? || clsId !in names.value) ==> r == IntToString(clsId) && ParseInt(r) == clsId
  {
    IntToStringRoundTrip(clsId);
    if names.Some? && |names.value| > 0 then GetOr(names.value, clsId, IntToString(clsId))
    else IntToString(clsId)
  }

  /** `YOLOv8Detector.detect` after `predict`: one detection per predicted
      box, in order, with coordinates truncated to integers. */
  function YoloDetections(preds: seq<Prediction>, names: Option<map<int, string>>): (r: seq<Detection>)
    ensures |r| == |preds|
    ensures forall k :: 0 <= k < |r| ==>
      && r[k].box == Box(Trunc(preds[k].x1), Trunc(preds[k].y1), Trunc(preds[k].x2), Trunc(preds[k].y2))
      && r[k].cls == ClassName(names, preds[k].clsId)
      && r[k].conf == preds[k].conf
  {
    seq(|preds|, k requires 0 <= k < |preds| =>
      var p := preds[k];
      Detection(Box(Trunc(p.x1), Trunc(p.y1), Trunc(p.x2), Trunc(p.y2)), ClassName(names, p.clsId), p.conf))
  }
}

=== FILE: events.dfy ===
/** The event list of the web page (`VideoProcessor.latest_events`,
    camera.py:78-84) over a directory listing given as (name, mtime) pairs. */
module Events {
  import opened Common
  import opened Text
  import Alerting
  import Actions

  datatype DirEntry = DirEntry(name: string, mtime: real)

  /** `{'filename': f, 'label': f.split('_')[0], 'time': strftime(...)}` */
  datatype EventInfo = EventInfo(filename: string, eventLabel: string, time: string)

  /** `f.lower().endswith('.jpg')` */
  predicate IsJpg(name: string)
  {
    EndsWith(Lower(name), ".jpg")
  }

  /** The `.jpg` entries of the listing, in listing order. */
  function Jpgs(entries: seq<DirEntry>): (r: seq<DirEntry>)
    ensures forall k :: 0 <= k < |r| ==> IsJpg(r[k].name)
    ensures forall e :: multiset(r)[e] == if IsJpg(e.name) then multiset(entries)[e] else 0
  {
    Filter((e: DirEntry) => IsJpg(e.name), entries)
  }

  predicate NewestFirst(s: seq<DirEntry>)
  {
    forall i, j :: 0 <= i < j < |s| ==> s[j].mtime <= s[i].mtime
  }

  /** Inserts `e` after every entry at least as recent, so that entries of
      equal time keep their listing order (Python's sort is stable, also with
      `reverse=True`). */
  function Insert(e: DirEntry, s: seq<DirEntry>): (r: seq<DirEntry>)
    requires NewestFirst(s)
    ensures NewestFirst(r)
    ensures multiset(r) == multiset(s) + multiset{e}
    ensures forall x :: x in r ==> x == e || x in s
    decreases |s|
  {
    if |s| == 0 then [e]
    else if s[0].mtime >= e.mtime then
      var t := Insert(e, s[1..]);
      InsertBehind(e, s, t);
      [s[0]] + t
    else [e] + s
  }

  /** The step of `Insert` that keeps the head `s[0]` in front. */
  lemma InsertBehind(e: DirEntry, s: seq<DirEntry>, t: seq<DirEntry>)
    requires NewestFirst(s) && |s| > 0 && s[0].mtime >= e.mtime
    requires NewestFirst(t)
    requires multiset(t) == multiset(s[1..]) + multiset{e}
    requires forall x :: x in t ==> x == e || x in s[1..]
    ensures NewestFirst([s[0]] + t)
    ensures multiset([s[0]] + t) == multiset(s) + multiset{e}
    ensures forall x :: x in [s[0]] + t ==> x == e || x in s
  {
    assert s == [s[0]] + s[1..];
    forall j | 0 <= j < |t|
      ensures t[j].mtime <= s[0].mtime
    {
      assert t[j] in t;
    }
  }

  /** `sorted(..., key=mtime, reverse=True)` */
  function SortNewestFirst(s: seq<DirEntry>): (r: seq<DirEntry>)
    ensures NewestFirst(r)
    ensures multiset(r) == multiset(s)
    decreases |s|
  {
    if |s| == 0 then []
    else
      assert s == s[..|s| - 1] + [s[|s| - 1]];
      Insert(s[|s| - 1], SortNewestFirst(s[..|s| - 1]))
  }

  /** Python's `s[:limit]`: a negative limit drops that many from the end. */
  function TakePrefix<T>(s: seq<T>, limit: int): (r: seq<T>)
    ensures r <= s
    ensures limit >= 0 ==> |r| == Min(limit, |s|)
    ensures limit < 0 ==> |s| - |r| == Min(-limit, |s|)
  {
    if limit >= 0 then s[..Min(limit, |s|)] else s[..Max(|s| + limit, 0)]
  }

  /** The files `latest_events` reports: at most `limit` of them, all
      `.jpg`, newest first, and no file left out is newer than one kept. */
  function Recent(listing: seq<DirEntry>, limit: int): (r: seq<DirEntry>)
    ensures limit >= 0 ==> |r| == Min(limit, |Jpgs(listing)|)
    ensures limit < 0 ==> |r| == Max(|Jpgs(listing)| + limit, 0)
    ensures forall k :: 0 <= k < |r| ==> IsJpg(r[k].name)
    ensures NewestFirst(r)
    ensures multiset(r) <= multiset(Jpgs(listing))
    ensures forall x, y :: x in multiset(Jpgs(listing)) - multiset(r) && y in r ==> x.mtime <= y.mtime
  {
    var all := Jpgs(listing);
    var sorted := SortNewestFirst(all);
    var r := TakePrefix(sorted, limit);
    NewestPrefix(sorted, |r|);
    JpgsOnly(all, r);
    r
  }

  /** Cutting a newest-first list leaves nothing newer behind. */
  lemma NewestPrefix(s: seq<DirEntry>, n: nat)
    requires NewestFirst(s) && n <= |s|
    ensures NewestFirst(s[..n])
    ensures multiset(s[..n]) <= multiset(s)
    ensures forall x, y :: x in multiset(s) - multiset(s[..n]) && y in s[..n] ==> x.mtime <= y.mtime
  {
    MultisetRest(s, n);
    RestNotNewer(s, n);
    assert forall x :: x in multiset(s) - multiset(s[..n]) ==> x in s[n..];
  }

  lemma RestNotNewer(s: seq<DirEntry>, n: nat)
    requires NewestFirst(s) && n <= |s|
    ensures forall x, y :: x in s[n..] && y in s[..n] ==> x.mtime <= y.mtime
  {
    forall x, y | x in s[n..] && y in s[..n]
      ensures x.mtime <= y.mtime
    {
      var j :| 0 <= j < |s| - n && s[n..][j] == x;
      var i :| 0 <= i < n && s[..n][i] == y;
      assert s[n + j] == x && s[i] == y;
    }
  }

  lemma MultisetRest<T>(s: seq<T>, n: nat)
    requires n <= |s|
    ensures multiset(s[..n]) <= multiset(s)
    ensures multiset(s) - multiset(s[..n]) == multiset(s[n..])
  {
    assert s == s[..n] + s[n..];
  }

  lemma JpgsOnly(all: seq<DirEntry>, r: seq<DirEntry>)
    requires forall k :: 0 <= k < |all| ==> IsJpg(all[k].name)
    requires multiset(r) <= multiset(all)
    ensures forall k :: 0 <= k < |r| ==> IsJpg(r[k].name)
  {
    forall k | 0 <= k < |r|
      ensures IsJpg(r[k].name)
    {
      assert r[k] in multiset(r);
      assert r[k] in multiset(all);
      var j :| 0 <= j < |all| && all[j] == r[k];
    }
  }

  /** `latest_events(limit)`: `None` stands for a failing `listdir` or
      `getmtime`, which the source turns into an empty list. The time
      formatting (`strftime` of the local time) is the parameter `format`. */
  function LatestEvents(listing: Option<seq<DirEntry>>, limit: int, format: real -> string): (r: seq<EventInfo>)
    ensures listing.None? ==> r == []
    ensures listing.Some? ==> |r| == |Recent(listing.value, limit)|
    ensures listing.Some? ==> forall k :: 0 <= k < |r| ==>
      var e := Recent(listing.value, limit)[k];
      r[k] == EventInfo(e.name, BeforeFirst(e.name, '_'), format(e.mtime))
  {
    match listing
    case None => []
    case Some(entries) => EventsOf(Recent(entries, limit), format)
  }

  /** The list comprehension of `latest_events` over the chosen files. */
  function EventsOf(files: seq<DirEntry>, format: real -> string): (r: seq<EventInfo>)
    ensures |r| == |files|
    ensures forall k :: 0 <= k < |r| ==> r[k] == EventInfo(files[k].name, BeforeFirst(files[k].name, '_'), format(files[k].mtime))
  {
    seq(|files|, k requires 0 <= k < |files| => EventInfo(files[k].name, BeforeFirst(files[k].name, '_'), format(files[k].mtime)))
  }

  /** Reading a snapshot name back gives the sanitised alert label when the
      label has no `_` of its own; a label with one is cut there, so a fall
      snapshot is listed under `ACCIDENT`. */
  lemma SnapshotLabelReadBack(alertLabel: string, ts: string)
    ensures '_' !in alertLabel && '/' !in alertLabel ==> BeforeFirst(Alerting.SnapshotName(alertLabel, ts), '_') == alertLabel
    ensures BeforeFirst(Alerting.SnapshotName(Actions.FallLabel, ts), '_') == "ACCIDENT"
    ensures IsJpg(Alerting.SnapshotName(alertLabel, ts))
  {
    var name := Alerting.SnapshotName(alertLabel, ts);
    if '_' !in alertLabel && '/' !in alertLabel {
      SanitizeIdempotent(alertLabel);
      BeforeFirstAt(alertLabel, ts + ".jpg");
      assert name == alertLabel + "_" + (ts + ".jpg");
    }
    var fall := Alerting.SnapshotName(Actions.FallLabel, ts);
    assert fall == "ACCIDENT" + "_" + ("FALL_" + ts + ".jpg");
    BeforeFirstAt("ACCIDENT", "FALL_" + ts + ".jpg");
    var l := Lower(name);
    assert l[|l| - 4..] == ".jpg";
  }

  lemma {:induction false} BeforeFirstAt(head: string, tail: string)
    requires '_' !in head
    ensures BeforeFirst(head + "_" + tail, '_') == head
    decreases |head|
  {
    if |head| > 0 {
      assert (head + "_" + tail)[1..] == head[1..] + "_" + tail;
      BeforeFirstAt(head[1..], tail);
    }
  }
}

=== FILE: frames.dfy ===
/** Video frames as the core sees them: captured pixel data that is never
    interpreted, plus the list of overlays (`cv2.rectangle`, `cv2.putText`)
    drawn onto it so far, in drawing order. */
module Frames {
  import opened Common
  import opened Geometry

  /** A BGR colour triple, as OpenCV takes it. */
  datatype Color = Color(b: int, g: int, r: int)

  const Green: Color := Color(0, 255, 0)
  const Red: Color := Color(0, 0, 255)
  const Cyan: Color := Color(255, 255, 0)

  datatype Overlay =
    | Rectangle(box: Box, color: Color)
    | Text(text: string, x: int, y: int, color: Color)

  datatype Frame = Frame(pixels: seq<int>, overlays: seq<Overlay>)

  /** `putText` */
  function PutText(f: Frame, text: string, x: int, y: int, color: Color): Frame
  {
    f.(overlays := f.overlays + [Text(text, x, y, color)])
  }

  /** The rectangle-plus-caption drawing used by both the stream
      (camera.py:21-24) and the snapshots (alerting/notifier.py:28-30): the
      caption sits 6 pixels above the box, clamped to the top edge. */
  function DrawBox(f: Frame, box: Box, caption: string, color: Color): Frame
  {
    f.(overlays := f.overlays + BoxMarks(box, caption, color))
  }

  /** The two overlays `DrawBox` adds. */
  function BoxMarks(box: Box, caption: string, color: Color): seq<Overlay>
  {
    [Rectangle(box, color), Text(caption, box.x1, Max(0, box.y1 - 6), color)]
  }
}

=== FILE: geometry.dfy ===
/** Box geometry of the action recogniser (detector/actions.py): boxes are
    integer pixel rectangles `(x1, y1, x2, y2)`. IoU keeps the source's
    formula with the `1e-6` guard in the denominator, but is computed over
    exact reals rather than the source's double-precision floats. */
module Geometry {
  import opened Common

  datatype Box = Box(x1: int, y1: int, x2: int, y2: int)

  /** The `1e-6` added to the union area. */
  const Eps: real := 0.000001

  /** Corners are ordered; zero width or height is allowed. */
  predicate WellFormed(b: Box)
  {
    b.x1 <= b.x2 && b.y1 <= b.y2
  }

  /** Signed area, as the source computes it: negative for a malformed box. */
  function Area(b: Box): int
  {
    (b.x2 - b.x1) * (b.y2 - b.y1)
  }

  /** The rectangle `(max x1, max y1, min x2, min y2)`; it may be inverted. */
  function Overlap(a: Box, b: Box): Box
  {
    Box(Max(a.x1, b.x1), Max(a.y1, b.y1), Min(a.x2, b.x2), Min(a.y2, b.y2))
  }

  /** `max(0, xi2 - xi1) * max(0, yi2 - yi1)` */
  function InterArea(a: Box, b: Box): (r: int)
    ensures r >= 0
  {
    var o := Overlap(a, b);
    Max(0, o.x2 - o.x1) * Max(0, o.y2 - o.y1)
  }

  /** The box spanning both: min of the minima, max of the maxima. */
  function UnionBox(a: Box, b: Box): Box
  {
    Box(Min(a.x1, b.x1), Min(a.y1, b.y1), Max(a.x2, b.x2), Max(a.y2, b.y2))
  }

  predicate Contains(outer: Box, inner: Box)
  {
    outer.x1 <= inner.x1 && outer.y1 <= inner.y1 && inner.x2 <= outer.x2 && inner.y2 <= outer.y2
  }

  /** An integer plus `1e-6` is never zero, so the division is always defined. */
  lemma PlusEpsNonZero(k: int)
    ensures k as real + Eps != 0.0
  {
    if k >= 0 {
    } else {
      assert k as real <= -1.0;
    }
  }

  /** `inter / (area_a + area_b - inter + 1e-6)` */
  function Iou(a: Box, b: Box): real
  {
    var inter := InterArea(a, b);
    var union := Area(a) + Area(b) - inter;
    PlusEpsNonZero(union);
    inter as real / (union as real + Eps)
  }

  /** IoU does not depend on the order of its arguments. */
  lemma IouSymmetric(a: Box, b: Box)
    ensures Iou(a, b) == Iou(b, a)
  {
    assert Overlap(a, b) == Overlap(b, a);
  }

  /** Boxes that are apart or only touch along an edge have no overlap. */
  lemma IouDisjoint(a: Box, b: Box)
    requires a.x2 <= b.x1 || b.x2 <= a.x1 || a.y2 <= b.y1 || b.y2 <= a.y1
    ensures InterArea(a, b) == 0
    ensures Iou(a, b) == 0.0
  {
  }

  lemma MulMono(a: int, b: int, c: int, d: int)
    requires 0 <= a <= c && 0 <= b <= d
    ensures a * b <= c * d
  {
    assert a * b <= c * b;
    assert c * b <= c * d;
  }

  /** The overlap of two boxes never exceeds either box. */
  lemma InterBelowArea(a: Box, b: Box)
    requires WellFormed(a) && WellFormed(b)
    ensures InterArea(a, b) <= Area(a)
    ensures InterArea(a, b) <= Area(b)
  {
    var o := Overlap(a, b);
    MulMono(Max(0, o.x2 - o.x1), Max(0, o.y2 - o.y1), a.x2 - a.x1, a.y2 - a.y1);
    MulMono(Max(0, o.x2 - o.x1), Max(0, o.y2 - o.y1), b.x2 - b.x1, b.y2 - b.y1);
  }

  lemma DivBelowOne(x: real, d: real)
    requires 0.0 <= x < d
    ensures 0.0 <= x / d < 1.0
  {
    assert x / d * d == x;
  }

  /** For well-formed boxes IoU lies in `[0, 1)`: in exact arithmetic the
      `1e-6` keeps it strictly below one even for identical boxes. */
  lemma {:induction false} IouBounds(a: Box, b: Box)
    requires WellFormed(a) && WellFormed(b)
    ensures 0.0 <= Iou(a, b) < 1.0
  {
    InterBelowArea(a, b);
    MulMono(0, 0, a.x2 - a.x1, a.y2 - a.y1);
    MulMono(0, 0, b.x2 - b.x1, b.y2 - b.y1);
    var inter := InterArea(a, b);
    var union := Area(a) + Area(b) - inter;
    assert inter <= union;
    DivBelowOne(inter as real, union as real + Eps);
  }

  /** A box compared with itself scores `A / (A + 1e-6)`, which in exact
      arithmetic is not one. */
  lemma IouSelf(a: Box)
    requires WellFormed(a)
    ensures Iou(a, a) == Area(a) as real / (Area(a) as real + Eps)
    ensures Iou(a, a) < 1.0
  {
    assert Overlap(a, a) == a;
    IouBounds(a, a);
  }

  /** The union box covers both boxes. */
  lemma UnionBoxContains(a: Box, b: Box)
    ensures Contains(UnionBox(a, b), a) && Contains(UnionBox(a, b), b)
    ensures WellFormed(a) ==> WellFormed(UnionBox(a, b))
  {
  }
}

=== FILE: motion.dfy ===
/** The motion estimator of the action recogniser (detector/actions.py:26-35)
    and the mean of the motion field over a rectangle (actions.py:62-65).
    Grey conversion and dense optical flow are OpenCV numerics: the grey frame
    is an input and the flow-magnitude field is an uninterpreted function
    `flow(previous, current)`. */
module Motion {
  import opened Common

  /** A single-channel luminance image, row-major. */
  type Gray = seq<seq<int>>

  /** A dense magnitude map, row-major. */
  type Grid = seq<seq<real>>

  /** `np.zeros_like(gray, dtype=float32)` */
  function ZerosLike(g: Gray): (z: Grid)
    ensures |z| == |g|
    ensures forall i :: 0 <= i < |g| ==> |z[i]| == |g[i]|
    ensures forall i, j :: 0 <= i < |z| && 0 <= j < |z[i]| ==> z[i][j] == 0.0
  {
    seq(|g|, i requires 0 <= i < |g| => seq(|g[i]|, j requires 0 <= j < |g[i]| => 0.0))
  }

  /** One call of `update_motion`: returns the magnitude field and the new
      baseline. Without a baseline the field is all zero; either way the
      current grey frame becomes the baseline. */
  function UpdateMotion(prev: Option<Gray>, gray: Gray, flow: (Gray, Gray) -> Grid): (r: (Grid, Option<Gray>))
    ensures r.1 == Some(gray)
    ensures prev.None? ==> |r.0| == |gray| && forall i :: 0 <= i < |gray| ==> |r.0[i]| == |gray[i]|
    ensures prev.None? ==> forall i, j :: 0 <= i < |r.0| && 0 <= j < |r.0[i]| ==> r.0[i][j] == 0.0
    ensures prev.Some? ==> r.0 == flow(prev.value, gray)
  {
    match prev
    case None => (ZerosLike(gray), Some(gray))
    case Some(p) => (flow(p, gray), Some(gray))
  }

  /** The baseline is one frame deep: the second of two consecutive calls
      measures flow from the first call's frame to its own, whatever came
      before. */
  lemma BaselineOneDeep(prev: Option<Gray>, g1: Gray, g2: Gray, flow: (Gray, Gray) -> Grid)
    ensures UpdateMotion(UpdateMotion(prev, g1, flow).1, g2, flow).0 == flow(g1, g2)
  {
  }

  /** Python/numpy normalisation of a step-1 slice `[lo:hi]` over a length
      `n`: negative bounds count from the end, bounds are clamped to
      `[0, n]`, and an inverted range is empty. Returns the start and the end. */
  function SliceBounds(n: nat, lo: int, hi: int): (r: (nat, nat))
    ensures r.0 <= r.1 <= n
    ensures 0 <= lo <= hi <= n ==> r == (lo, hi)
    ensures 0 <= hi <= lo ==> r.0 == r.1
  {
    var s := if lo < 0 then Max(lo + n, 0) else Min(lo, n);
    var e := if hi < 0 then Max(hi + n, 0) else Min(hi, n);
    if s <= e then (s, e) else (s, s)
  }

  function Slice<T>(s: seq<T>, lo: int, hi: int): seq<T>
  {
    var b := SliceBounds(|s|, lo, hi);
    s[b.0..b.1]
  }

  /** `mag[y1:y2, x1:x2]` */
  function Roi(mag: Grid, y1: int, y2: int, x1: int, x2: int): Grid
  {
    var rows := Slice(mag, y1, y2);
    seq(|rows|, i requires 0 <= i < |rows| => Slice(rows[i], x1, x2))
  }

  function RowSum(row: seq<real>): real
  {
    if |row| == 0 then 0.0 else RowSum(row[..|row| - 1]) + row[|row| - 1]
  }

  function GridSum(g: Grid): real
  {
    if |g| == 0 then 0.0 else GridSum(g[..|g| - 1]) + RowSum(g[|g| - 1])
  }

  /** `roi.size` */
  function GridSize(g: Grid): nat
  {
    if |g| == 0 then 0 else GridSize(g[..|g| - 1]) + |g[|g| - 1]|
  }

  /** `float(np.mean(roi))` when `roi.size > 0`; `None` for an empty region. */
  function Mean(g: Grid): (r: Option<real>)
    ensures r.Some? <==> GridSize(g) > 0
  {
    if GridSize(g) == 0 then None else Some(GridSum(g) / GridSize(g) as real)
  }

  lemma {:induction false} RowSumBelow(row: seq<real>, t: real)
    requires forall j :: 0 <= j < |row| ==> row[j] < t
    ensures |row| > 0 ==> RowSum(row) < t * |row| as real
    ensures |row| == 0 ==> RowSum(row) == 0.0
    decreases |row|
  {
    if |row| > 0 {
      var init := row[..|row| - 1];
      RowSumBelow(init, t);
      var m := |init| as real;
      assert t * (m + 1.0) == t * m + t;
      assert RowSum(row) == RowSum(init) + row[|row| - 1];
    }
  }

  lemma {:induction false} GridSumBelow(g: Grid, t: real)
    requires forall i, j :: 0 <= i < |g| && 0 <= j < |g[i]| ==> g[i][j] < t
    ensures GridSize(g) > 0 ==> GridSum(g) < t * GridSize(g) as real
    ensures GridSize(g) == 0 ==> GridSum(g) == 0.0
    decreases |g|
  {
    if |g| > 0 {
      var init := g[..|g| - 1];
      var last := g[|g| - 1];
      assert forall j :: 0 <= j < |last| ==> last[j] < t;
      RowSumBelow(last, t);
      GridSumBelow(init, t);
      var a := GridSize(init) as real;
      var b := |last| as real;
      assert GridSize(g) as real == a + b;
      assert GridSum(g) == GridSum(init) + RowSum(last);
      assert t * (a + b) == t * a + t * b;
    }
  }

  /** If every sample of a non-empty region is below `t`, so is its mean:
      a quiet region never reaches a motion threshold above its peak. */
  lemma MeanBelow(g: Grid, t: real)
    requires forall i, j :: 0 <= i < |g| && 0 <= j < |g[i]| ==> g[i][j] < t
    ensures Mean(g).Some? ==> Mean(g).value < t
  {
    GridSumBelow(g, t);
    if GridSize(g) > 0 {
      var n := GridSize(g) as real;
      assert GridSum(g) < t * n;
      assert GridSum(g) / n * n == GridSum(g);
    }
  }

  /** With non-negative bounds (boxes inside the frame), an inverted or
      degenerate rectangle selects nothing. */
  lemma EmptyRoi(mag: Grid, y1: int, y2: int, x1: int, x2: int)
    requires 0 <= y1 && 0 <= y2 && 0 <= x1 && 0 <= x2
    requires y2 <= y1 || x2 <= x1
    ensures Mean(Roi(mag, y1, y2, x1, x2)).None?
  {
    var roi := Roi(mag, y1, y2, x1, x2);
    if y2 <= y1 {
      assert |roi| == 0;
    } else {
      ZeroWidthSize(roi);
    }
  }

  lemma {:induction false} ZeroWidthSize(g: Grid)
    requires forall i :: 0 <= i < |g| ==> |g[i]| == 0
    ensures GridSize(g) == 0
    decreases |g|
  {
    if |g| > 0 {
      ZeroWidthSize(g[..|g| - 1]);
    }
  }

  /** With non-negative bounds, a rectangle that starts below the last row
      or right of every row's end selects nothing, whatever its area. */
  lemma RoiOffField(mag: Grid, y1: int, y2: int, x1: int, x2: int)
    requires 0 <= y1 && 0 <= x1
    requires y1 >= |mag| || forall i :: 0 <= i < |mag| ==> x1 >= |mag[i]|
    ensures Mean(Roi(mag, y1, y2, x1, x2)).None?
  {
    var roi := Roi(mag, y1, y2, x1, x2);
    if y1 >= |mag| {
      assert |roi| == 0;
    } else {
      var b := SliceBounds(|mag|, y1, y2);
      forall i | 0 <= i < |roi|
        ensures |roi[i]| == 0
      {
        assert roi[i] == Slice(mag[b.0 + i], x1, x2);
      }
      ZeroWidthSize(roi);
    }
  }

  /** Every sample of a region is a sample of the field, so a field whose
      samples all lie below `t` gives regions whose samples do too. */
  lemma RoiBelow(mag: Grid, y1: int, y2: int, x1: int, x2: int, t: real)
    requires forall i, j :: 0 <= i < |mag| && 0 <= j < |mag[i]| ==> mag[i][j] < t
    ensures var roi := Roi(mag, y1, y2, x1, x2);
      forall i, j :: 0 <= i < |roi| && 0 <= j < |roi[i]| ==> roi[i][j] < t
  {
    var roi := Roi(mag, y1, y2, x1, x2);
    var b := SliceBounds(|mag|, y1, y2);
    forall i, j | 0 <= i < |roi| && 0 <= j < |roi[i]|
      ensures roi[i][j] < t
    {
      var row := mag[b.0 + i];
      var c := SliceBounds(|row|, x1, x2);
      assert roi[i] == row[c.0..c.1];
      assert roi[i][j] == mag[b.0 + i][c.0 + j];
    }
  }
}

=== FILE: multipart.dfy ===
/** The `multipart/x-mixed-replace` chunk that carries one JPEG of the live
    stream (camera.py:75-76). */
module Multipart {
  import opened Common

  newtype byte = x: int | 0 <= x < 256

  predicate IsAscii(s: string)
  {
    forall i :: 0 <= i < |s| ==> s[i] as int < 128
  }

  function AsciiBytes(s: string): (r: seq<byte>)
    requires IsAscii(s)
    ensures |r| == |s|
    ensures forall i :: 0 <= i < |s| ==> r[i] as int == s[i] as int
  {
    seq(|s|, i requires 0 <= i < |s| => s[i] as int as byte)
  }

  /** `b'--frame\r\n' b'Content-Type: image/jpeg\r\n\r\n'` */
  const Header: seq<byte> := AsciiBytes("--frame\r\nContent-Type: image/jpeg\r\n\r\n")

  /** `b'\r\n'` */
  const Trailer: seq<byte> := AsciiBytes("\r\n")

  /** The chunk yielded for one encoded frame. */
  function Chunk(payload: seq<byte>): (c: seq<byte>)
    ensures |c| == |Header| + |payload| + |Trailer|
    ensures c[..|Header|] == Header
    ensures c[|Header|..|Header| + |payload|] == payload
    ensures c[|Header| + |payload|..] == Trailer
  {
    Header + payload + Trailer
  }

  /** A receiver's view: the payload of a well-framed chunk, if any. */
  function Unframe(c: seq<byte>): (r: Option<seq<byte>>)
  {
    if |c| >= |Header| + |Trailer| && c[..|Header|] == Header && c[|c| - |Trailer|..] == Trailer
    then Some(c[|Header|..|c| - |Trailer|])
    else None
  }

  /** Stripping the fixed header and trailer recovers the payload. */
  lemma UnframeChunk(payload: seq<byte>)
    ensures Unframe(Chunk(payload)) == Some(payload)
  {
    var c := Chunk(payload);
    assert c[|c| - |Trailer|..] == Trailer;
  }

  /** And every chunk a receiver accepts is one the stream could have sent. */
  lemma ChunkUnframe(c: seq<byte>, payload: seq<byte>)
    requires Unframe(c) == Some(payload)
    ensures c == Chunk(payload)
  {
    assert c == c[..|Header|] + c[|Header|..|c| - |Trailer|] + c[|c| - |Trailer|..];
  }
}

=== FILE: text.dfy ===
/** String helpers standing in for the Python string methods the core uses:
    `str.lower`, `str.endswith`, `str.replace('/', '_')`, `str.split('_')[0]`
    and `str(int)`. */
module Text {

  /** Lower-casing of one character. Only the characters whose lower-case
      form is an ASCII letter are mapped: `A`..`Z` and the KELVIN SIGN
      (U+212A, which Python lower-cases to `k`). Every comparison the core
      makes after lowering is against an ASCII lower-case literal, so no other
      mapping can change its outcome. */
  function LowerChar(c: char): char
  {
    if 'A' <= c <= 'Z' then (c as int + 32) as char
    else if c == '\U{212A}' then 'k'
    else c
  }

  function Lower(s: string): (r: string)
    ensures |r| == |s|
    ensures forall i :: 0 <= i < |s| ==> r[i] == LowerChar(s[i])
  {
    seq(|s|, i requires 0 <= i < |s| => LowerChar(s[i]))
  }

  /** Lower-casing twice is lower-casing once. */
  lemma LowerIdempotent(s: string)
    ensures Lower(Lower(s)) == Lower(s)
  {
  }

  predicate EndsWith(s: string, suffix: string)
  {
    |suffix| <= |s| && s[|s| - |suffix|..] == suffix
  }

  /** `name.replace('/', '_')`: the snapshot file name may not create a
      sub-directory. */
  function Sanitize(name: string): (r: string)
    ensures |r| == |name|
    ensures '/' !in r
    ensures forall i :: 0 <= i < |name| && name[i] != '/' ==> r[i] == name[i]
    ensures forall i :: 0 <= i < |name| && name[i] == '/' ==> r[i] == '_'
  {
    seq(|name|, i requires 0 <= i < |name| => if name[i] == '/' then '_' else name[i])
  }

  /** Sanitising leaves a name without separators alone, and so is idempotent. */
  lemma SanitizeIdempotent(name: string)
    ensures '/' !in name ==> Sanitize(name) == name
    ensures Sanitize(Sanitize(name)) == Sanitize(name)
  {
  }

  /** `s.split(sep)[0]`: everything before the first `sep`, or all of `s`. */
  function BeforeFirst(s: string, sep: char): (r: string)
    ensures r <= s
    ensures sep !in r
    ensures |r| < |s| ==> s[|r|] == sep
  {
    if |s| == 0 then ""
    else if s[0] == sep then ""
    else [s[0]] + BeforeFirst(s[1..], sep)
  }

  function DigitChar(d: int): (c: char)
    requires 0 <= d < 10
    ensures '0' <= c <= '9'
    ensures c as int - '0' as int == d
  {
    ('0' as int + d) as char
  }

  predicate IsDigits(s: string)
  {
    forall i :: 0 <= i < |s| ==> '0' <= s[i] <= '9'
  }

  /** Decimal notation of a natural number, without leading zeros. */
  function NatToString(n: nat): (r: string)
    ensures |r| >= 1
    ensures IsDigits(r)
    ensures r[0] == '0' ==> n == 0 && |r| == 1
    decreases n
  {
    if n < 10 then [DigitChar(n)] else NatToString(n / 10) + [DigitChar(n % 10)]
  }

  /** `str(n)` for a Python `int`. */
  function IntToString(n: int): (r: string)
    ensures |r| >= 1
    ensures n >= 0 <==> r[0] != '-'
    ensures n >= 0 ==> IsDigits(r) && (r[0] == '0' ==> r == "0")
    ensures n < 0 ==> |r| >= 2 && IsDigits(r[1..]) && r[1] != '0'
  {
    if n < 0 then "-" + NatToString(-n) else NatToString(n)
  }

  /** Reads a decimal numeral back; the partner of `NatToString`. */
  function ParseNat(s: string): nat
    requires IsDigits(s)
    decreases |s|
  {
    if |s| == 0 then 0
    else 10 * ParseNat(s[..|s| - 1]) + (s[|s| - 1] as int - '0' as int)
  }

  /** Reads `str(n)` back, sign included. */
  function ParseInt(s: string): int
  {
    if |s| > 0 && s[0] == '-' && IsDigits(s[1..]) then 0 - ParseNat(s[1..])
    else if IsDigits(s) then ParseNat(s)
    else 0
  }

  lemma {:induction false} ParseNatToString(n: nat)
    ensures ParseNat(NatToString(n)) == n
    decreases n
  {
    if n >= 10 {
      var s := NatToString(n / 10) + [DigitChar(n % 10)];
      assert s[..|s| - 1] == NatToString(n / 10);
      ParseNatToString(n / 10);
    }
  }

  /** `str` on integers loses nothing: the numeral names exactly `n`. */
  lemma IntToStringRoundTrip(n: int)
    ensures ParseInt(IntToString(n)) == n
  {
    var s := IntToString(n);
    if n < 0 {
      var digits := NatToString(-n);
      assert s == "-" + digits;
      assert s[1..] == digits;
      ParseNatToString(-n);
      assert ParseInt(s) == 0 - ParseNat(digits);
    } else {
      assert s == NatToString(n);
      assert s[0] != '-';
      ParseNatToString(n);
    }
  }

  /** Hence two different class ids never print the same. */
  lemma IntToStringInjective(a: int, b: int)
    ensures IntToString(a) == IntToString(b) ==> a == b
  {
    IntToStringRoundTrip(a);
    IntToStringRoundTrip(b);
  }
}
